=== FILE: README.md ===
# killeengeo utilities and samplers in Dafny

This project models two parts of the killeengeo geometry library.

- The helpers in `utils.py` that coerce user input into arrays (`_array`),
  add and drop homogeneous weights (`_to_homogeneous`, `_from_homogeneous`),
  broadcast scalars (`tuplify`, `listify`), convert angles (`radians`) and
  make values JSON-ready (`jsonable`).
- The rejection samplers in `random.py`: `spherical_uniform`,
  `clipped_spherical_uniform`, `normal` and `uniform`.

Python values are one datatype, `Values.Value`. It covers None, bool, int,
float, complex, str, Path, list, tuple, dict, a one-dimensional numpy
array, an object with `__array__`, and any other type. A raised exception
is an `Err` of `Outcomes.Result`. Most error kinds name the exception the
source raises. Two do not: `NonFiniteCoordinates` stands for numpy's
silent division by a zero weight, and `DrawsExhausted` for a finite draw
sequence running out.

Randomness is a parameter. A sampler receives the candidates its
generator yields, as a finite sequence consumed front to back. A loop that
needs more candidates than the sequence holds ends with `DrawsExhausted`,
where the Python loop would keep drawing. Three other calls are parameters
too: `float()` on a token (`parse`), `Path.resolve` (`resolve`) and
`np.arctan2` (`atan2`). So are the rotation `F @` from +z onto the center
direction (`toCenter`) and the cap draws of `_sample_spherical`
(`capDraws`). `Cloud` and `Normal` also return the number of rounds
their loop ran, which the Python functions do not return.

Modules:

- `Outcomes` (outcomes.dfy) holds the error kinds, `Option` and `Result`.
- `Values` (values.dfy) holds the Python values, hashability and dict keys.
- `Coercion` (coercion.dfy) models `_array` and Python's whitespace `str.split`.
- `Homogeneous` (homogeneous.dfy) models `_to_homogeneous` and `_from_homogeneous`.
- `Broadcast` (broadcast.dfy) models `tuplify` and `listify`.
- `Angles` (angles.dfy) models `radians`.
- `Json` (json.dfy) models `jsonable` and the `dict()` rebuild it ends with.
- `Geometry` (geometry.dfy) holds the points, vectors and norms the samplers use.
- `Accumulate` (accumulate.dfy) holds the two rejection loops and the mask filter.
- `Sampling` (sampling.dfy) models the four samplers.

## Model

| member | source | states |
|---|---|---|
| Coercion.Split | src/killeengeo/utils.py:15 | `str.split()` yields non-empty tokens free of whitespace which, written one after another, are exactly the non-whitespace characters of the string in order |
| Coercion.SplitLayout | src/killeengeo/utils.py:15 | splitting tokens laid out with any non-empty runs of whitespace between them, and any whitespace before and after, gives back exactly those tokens |
| Coercion.SplitJoin | src/killeengeo/utils.py:15 | splitting tokens joined by single spaces gives back exactly those tokens |
| Coercion.ParseAll | src/killeengeo/utils.py:17 | the float conversion succeeds iff every token parses, keeps order, and otherwise reports the first token that fails |
| Coercion.FromTokens | src/killeengeo/utils.py:14-22 | 2 or 3 tokens become that many coordinates; 14 tokens (a Slicer line) use tokens 1 to 3; a failed parse raises for the first token that does not read as a float; any other count raises with the original text |
| Coercion.ToArray | src/killeengeo/utils.py:12-29 | no argument fails on `args[0]`; a lone string is split and parsed; a lone non-string is converted as is; two or more are packed together |
| Coercion.ThreeCoordinates | src/killeengeo/utils.py:14-17 | a string "x y z" of three parseable tokens becomes the three coordinates in order |
| Coercion.SlicerLine | src/killeengeo/utils.py:18-20 | a 14-column line, whatever whitespace separates and surrounds its columns, coerces exactly like the string of its columns 1 to 3 |
| Homogeneous.ToHomogeneous | src/killeengeo/utils.py:42-45 | a non-empty array gains one trailing weight, 1 for a point and 0 for a vector, and keeps its coordinates; an empty array stays empty |
| Homogeneous.FromHomogeneous | src/killeengeo/utils.py:58-62 | a point is divided by its weight, so each result times the weight is the input coordinate, and a zero weight is an error; a vector must have a last entry within 1e-8 of 0 and loses it; an empty vector fails |
| Homogeneous.FromToHomogeneous | src/killeengeo/utils.py:42-62 | dropping the weight undoes adding it, for every point and every non-empty vector |
| Homogeneous.EmptyVectorRoundTrip | src/killeengeo/utils.py:42-62 | the round trip fails for the empty vector, because adding the weight left it empty |
| Homogeneous.ToFromHomogeneous | src/killeengeo/utils.py:42-62 | an array of length at least two that ends in the weight 1 (point) or 0 (vector) is rebuilt exactly by dropping and re-adding it; a lone weight is not, since it comes back as the empty array |
| Homogeneous.ScaledPointIsSamePoint | src/killeengeo/utils.py:59 | scaling a homogeneous point by a non-zero factor does not change the point it denotes |
| Broadcast.Tuplify | src/killeengeo/utils.py:69-75 | a list or tuple is accepted iff its length is `n` and becomes a tuple of the same items, else the assertion fails; anything else becomes `max(n, 0)` copies |
| Broadcast.TuplifyLength | src/killeengeo/utils.py:69-75 | with `n >= 0` a successful call always yields exactly `n` items |
| Broadcast.TuplifyIdempotent | src/killeengeo/utils.py:69-75 | with `n >= 0`, tuplifying a result again returns it unchanged |
| Broadcast.TuplifyNegativeCount | src/killeengeo/utils.py:71-75 | with `n < 0` a scalar becomes the empty tuple, which a second call rejects |
| Broadcast.Listify | src/killeengeo/utils.py:78-82 | a list is returned as it is, whatever `n`; any other value, a tuple included, becomes a list of `max(n, 0)` copies of itself |
| Broadcast.ListifyIdempotent | src/killeengeo/utils.py:78-82 | listifying a result again, with any count, changes nothing |
| Angles.RadiansOf | src/killeengeo/utils.py:120-130 | succeeds iff the value is a number, array, or list, tuple or dict of such values; keeps the nesting shape and dict keys; tuples come back as lists at every depth; each item or dict value of the result is the conversion of the original one; with `degrees` every number it holds (array entries and nested values, in order) becomes its radians and no bool or int is left, and without it every number is kept |
| Angles.Radians | src/killeengeo/utils.py:110-134 | no argument fails on `args[-1]`; a single argument is converted on its own, exactly as `RadiansOf` does; with several, a trailing bool is dropped and the rest converted with it as `degrees`; several arguments without a trailing bool give a list of the same length, each item the conversion of its argument, of the same shape and with that argument's numbers converted, and fail iff some argument cannot be converted; no result holds a tuple |
| Angles.TrailingFlag | src/killeengeo/utils.py:131-132 | a trailing bool after at least one argument is removed and replaces the `degrees` keyword |
| Angles.FlagNextToAngleWins | src/killeengeo/utils.py:131-132 | of several trailing bools, the one right after the angle decides the conversion |
| Angles.LoneBoolIsAnAngle | src/killeengeo/utils.py:120-122 | a single bool is not a flag but the angle 0 or 1 |
| Angles.HalfTurns | src/killeengeo/utils.py:110-122 | with the default `degrees`, `180 k` degrees convert to `k` pi, for every `k` |
| Angles.IdentityWithoutDegrees | src/killeengeo/utils.py:120-128 | with `degrees=False` every convertible value without tuples comes back unchanged |
| Json.Assign | src/killeengeo/utils.py:151 | a dict assignment keeps keys distinct and adds exactly the assigned key with its value; an existing key keeps its place, a new key goes last, and every other entry stays where it was |
| Json.BuildDict | src/killeengeo/utils.py:151 | `dict(pairs)` succeeds iff every key is hashable; its keys are distinct and are exactly the keys given; each entry comes from the input; for every key the last pair given is the entry kept, and a starting entry whose key is not assigned again survives |
| Json.BuildDictFresh | src/killeengeo/utils.py:151 | pairs with distinct keys are kept in order, one entry each |
| Json.Jsonable | src/killeengeo/utils.py:137-157 | a success holds no None, path, array or unknown object; None becomes "null"; strings and numbers are returned as they are; a path becomes its resolved string; arrays become lists of floats; lists and tuples keep kind and length and each item is the conversion of the original item; a dict becomes the dict that `dict()` builds from its converted key-value pairs, so it never grows; it succeeds exactly when no unknown type occurs anywhere, keys included, and every dict key stays hashable once converted (not a list, dict or array, nor a tuple holding one); an unknown type raises, and every other failure is an unhashable key |
| Json.DictEntriesConverted | src/killeengeo/utils.py:150-151 | every entry of a converted dict is the conversion of some key-value pair of the original |
| Json.DictThroughPairs | src/killeengeo/utils.py:150-151 | a dict whose key-value pairs all convert becomes `dict()` of those converted pairs: every converted key is kept, with the value of its last pair |
| Json.DictFromReadyPairs | src/killeengeo/utils.py:151 | a dict rebuilt from JSON-ready pairs is JSON-ready, and no larger than the list of pairs |
| Json.JsonReadyIsFixed | src/killeengeo/utils.py:137-157 | a JSON-ready value is returned unchanged |
| Json.JsonableIdempotent | src/killeengeo/utils.py:137-157 | converting a converted value again changes nothing |
| Json.ComplexPassesThrough | src/killeengeo/utils.py:144-145 | a complex number comes back unchanged, and `json.dump` cannot write it |
| Json.ComplexRefused | src/killeengeo/utils.py:144-145 | the corrected conversion refuses a complex number as not serializable instead of passing it on |
| Json.TupleKeyPassesThrough | src/killeengeo/utils.py:150-151 | a dict with a tuple key comes back unchanged, and `json.dump` cannot write it |
| Json.JsonableForDump | src/killeengeo/utils.py:137-157 | the corrected conversion: a success is something `json.dump` writes, and it agrees with `jsonable` wherever that result is writable |
| Json.DumpableIsFixed | src/killeengeo/utils.py:137-157 | the corrected conversion returns every writable converted value unchanged |
| Json.JsonableForDumpIdempotent | src/killeengeo/utils.py:137-157 | converting again with the corrected conversion changes nothing |
| Json.NullKeyCollision | src/killeengeo/utils.py:142-151 | `{None: 1, "null": 2}` becomes `{"null": 2}`: converted keys can collide and the later value wins |
| Geometry.PlusMinus | src/killeengeo/random.py:142-145 | moving a point by a vector and subtracting the point gives the vector back |
| Accumulate.Filter | src/killeengeo/random.py:139 | masking keeps only accepted candidates and never more than were drawn |
| Accumulate.FilterMembers | src/killeengeo/random.py:98 | a candidate is kept iff it was drawn and accepted |
| Accumulate.FilterAppend | src/killeengeo/random.py:139-140 | masking two batches one after the other equals masking their concatenation |
| Accumulate.FilterAcceptsAll | src/killeengeo/random.py:138-139 | a mask that accepts everything keeps every candidate |
| Accumulate.FilterKeepsAll | src/killeengeo/random.py:139 | if the mask keeps as many as were drawn, it accepted each of them |
| Accumulate.WholeBatchBounds | src/killeengeo/random.py:86-87 | full rounds of `n_` draws never pass the last whole batch, and they reach it once less than a batch is left |
| Accumulate.FillByBatches | src/killeengeo/random.py:85-98 | every round consumes a full batch; it succeeds iff the whole batches hold `n_` accepted candidates; on success the first `n_` held are the first `n_` accepted overall, and the round before the last still held fewer than `n_` |
| Accumulate.FillByRemainder | src/killeengeo/random.py:133-140 | each round draws only the missing count, so it holds exactly `n_` on success, namely the first `n_` accepted; it succeeds iff the draws hold `n_` accepted; the last draw consumed was kept; with a mask that accepts all, one round suffices |
| Sampling.SphericalUniform | src/killeengeo/random.py:31-39 | a negative `n` is refused; otherwise each raw draw is rotated onto the center, in order, and `n=None` gives a single vector |
| Sampling.SingleIsBatchOfOne | src/killeengeo/random.py:34-39 | `n=None` returns what `n=1` returns as its only item |
| Sampling.SphericalSamplesAreUnit | src/killeengeo/random.py:32-39 | unit raw draws under a length-preserving rotation give unit samples |
| Sampling.CapWidth | src/killeengeo/random.py:84 | `d_phi` is the larger of the two clipping angles |
| Sampling.InClip | src/killeengeo/random.py:89-97 | a direction is kept when its left/right angle is within `max_alpha` and its cranial/caudal angle within `max_beta` or its yaw within `max_theta`; a negative `max_alpha`, or negative `max_beta` and `max_theta` together, keep nothing |
| Sampling.ClipWidens | src/killeengeo/random.py:94-97 | widening any clipping angle never rejects a direction the narrower clip kept |
| Sampling.BallMask | src/killeengeo/random.py:138-139 | without a radius every offset is kept; with one, exactly the offsets whose norm is at most the radius, so none when the radius is negative (`uniform` filters the same way) |
| Sampling.RoundIsSphericalBatch | src/killeengeo/random.py:87 | each round of the clipped sampler is one `spherical_uniform` call on the next `n_` cap draws |
| Sampling.ClippedSphericalUniform | src/killeengeo/random.py:82-103 | succeeds iff the whole rounds hold `n_` candidates inside the clip; returns the first `n_` of them in draw order, each inside the clip, as one vector for `n=None` |
| Sampling.Cloud | src/killeengeo/random.py:130-145 | succeeds iff the draws hold `n_` accepted offsets; returns the first `n_` of them added to the center, in order, with the requested shape; a mask that accepts everything needs at most one round |
| Sampling.Normal | src/killeengeo/random.py:130-145 | a negative scale raises once a batch is asked for; otherwise as Cloud with the radius mask: every sample lies within the radius of the center; without a radius it succeeds iff `n_` offsets were drawn, and then after at most one round |
| Sampling.Uniform | src/killeengeo/random.py:167-182 | a missing radius raises when the first batch negates it, so the `radius is not None` test never fails; a loop that never runs returns the empty list; otherwise as Cloud with the ball mask: every sample lies within the radius of the center |
| Sampling.NegativeRadiusAcceptsNothing | src/killeengeo/random.py:174-176 | with a negative radius the ball mask accepts no offset |
| Sampling.UniformNegativeRadius | src/killeengeo/random.py:171-177 | so `uniform` with a negative radius and a positive count never finishes |

## Left out

- core.py is not part of this model. Points and vectors are plain coordinate triples. `vector(...).hat()`, `rotfrom` and `F @` appear only through the `toCenter` parameter.
- `_sample_spherical` and the distributions behind `np.random.uniform` and `np.random.normal` are left out. The model states nothing about how candidates are distributed, only how they are consumed.
- The samplers' unbounded loops are bounded by the finite draw sequence. Running out is `DrawsExhausted`, so the model says nothing about termination with probability 1.
- A non-negative `scale` of `normal` and the cube bounds of `uniform` only shape the distribution, so they appear only where they raise.
- Logging (`log.warning`, `log.debug`) and `traceback.print_stack` are left out.
- `save_json` and `load_json` are file I/O and are left out. `json.dump` with `sort_keys` is left out as well.
- `float()` on a token, `Path.resolve`, `np.arctan2` and `math.radians` rounding are left out. The first three are parameters, and the conversion multiplies by pi / 180 exactly, with pi as the shortest decimal that reads back as the double `math.pi`; the exact value of that double is not used.
- Coercion.Split: the contract states which characters the tokens hold, not that each token is a maximal run; SplitLayout states that for strings laid out from tokens.
- Coercion.Split: only the ASCII and Latin-1 whitespace that `str.split()` recognises is modelled, not the other Unicode spaces.
- Coercion.ToArray: `np.array` on a lone non-string or on several arguments is kept as the value itself (`Same`, `Packed`). The numeric conversion of arbitrary objects is left out.
- Homogeneous.FromHomogeneous: arrays are one-dimensional. The batched `[..., -1:]` form over many rows is left out.
- Homogeneous.FromHomogeneous: a zero point weight gives an error. Numpy returns inf or nan coordinates with a warning, and the model has no non-finite reals.
- Values.Value: numpy arrays are one-dimensional arrays of reals. Integer dtypes, nesting and NaN are left out.
- Json.BuildDict: keys are equal only when they are the same value. Python also treats `1`, `1.0` and `True` as one key, and that case is left out.
- Json.Jsonable: `np.array(obj).tolist()` is modelled for objects that hold a flat real array. Other `__array__` shapes are left out.
- Angles.RadiansOf: complex numbers and paths are rejected, as the source does, and objects with `__array__` are rejected too.
- Json.Jsonable: whether a success is something `json.dump` writes is not promised, because the source does not keep that promise; see Findings.
- Angles.RadiansOf: `math.radians` raises OverflowError for an int too large for a float; numbers are unbounded here, so every int converts.
- The samplers' default arguments (`d_phi=np.pi` for `spherical_uniform`, `scale=1` for `normal`, `radius=1` for `uniform`, and the origin as center) are left out; every call here passes its arguments.

## Findings

| source | as written | input that shows it | evidently intended | confidence | as-written member | corrected member |
|---|---|---|---|---|---|---|
| src/killeengeo/utils.py:144-145 | complex numbers are returned as they are | `jsonable(1+2j)` and then `json.dump`, as `save_json` does | a result `json.dump` can write, as the docstring's "JSON-ready" says | medium, not executed | Json.ComplexPassesThrough | Json.JsonableForDump |
| src/killeengeo/utils.py:150-151 | tuple keys are rebuilt into the dict as they are | `jsonable({(1, 2): 3})` and then `json.dump` | a result `json.dump` can write | medium, not executed | Json.TupleKeyPassesThrough | Json.JsonableForDump |

=== FILE: accumulate.dfy ===
/**
  The rejection loop shared by the samplers of random.py: draw a batch of
  candidates, keep those the acceptance mask passes, append them, and stop
  once enough are held. The random generator is the sequence `draws` of the
  candidates it yields, consumed front to back; a loop that would need more
  candidates than `draws` holds returns `None` where the Python loop would
  keep drawing.
 */
module Accumulate {
  import opened Outcomes

  /** `xs[mask]`: the accepted candidates, in draw order. */
  function Filter<T>(xs: seq<T>, accept: T -> bool): (ys: seq<T>)
    ensures |ys| <= |xs|
    ensures forall i :: 0 <= i < |ys| ==> accept(ys[i])
  {
    if |xs| == 0 then []
    else (if accept(xs[0]) then [xs[0]] else []) + Filter(xs[1..], accept)
  }

  /** The filter keeps exactly the accepted candidates: nothing is invented and no accepted one is lost. */
  lemma {:induction false} FilterMembers<T>(xs: seq<T>, accept: T -> bool)
    ensures forall y :: y in Filter(xs, accept) <==> y in xs && accept(y)
    decreases |xs|
  {
    if |xs| > 0 {
      FilterMembers(xs[1..], accept);
      assert forall y :: y in xs <==> y == xs[0] || y in xs[1..];
    }
  }

  /** Filtering a concatenation filters each part. */
  lemma {:induction false} FilterAppend<T>(a: seq<T>, b: seq<T>, accept: T -> bool)
    ensures Filter(a + b, accept) == Filter(a, accept) + Filter(b, accept)
    decreases |a|
  {
    if |a| == 0 {
      assert a + b == b;
    } else {
      assert (a + b)[1..] == a[1..] + b;
      FilterAppend(a[1..], b, accept);
    }
  }

  /** A filter that keeps as many candidates as it was given accepted every one. */
  lemma {:induction false} FilterKeepsAll<T>(xs: seq<T>, accept: T -> bool)
    requires |Filter(xs, accept)| == |xs|
    ensures forall i :: 0 <= i < |xs| ==> accept(xs[i])
    decreases |xs|
  {
    if |xs| > 0 {
      assert accept(xs[0]);
      FilterKeepsAll(xs[1..], accept);
      assert forall i :: 1 <= i < |xs| ==> xs[i] == xs[1..][i - 1];
    }
  }

  /** When every candidate passes, the filter keeps them all. */
  lemma {:induction false} FilterAcceptsAll<T>(xs: seq<T>, accept: T -> bool)
    requires forall i :: 0 <= i < |xs| ==> accept(xs[i])
    ensures Filter(xs, accept) == xs
    decreases |xs|
  {
    if |xs| > 0 {
      assert forall i :: 0 <= i < |xs[1..]| ==> xs[1..][i] == xs[i + 1];
      FilterAcceptsAll(xs[1..], accept);
      assert [xs[0]] + xs[1..] == xs;
    }
  }

  /** One more round: the accepted prefix grows by the accepted part of the next batch. */
  lemma Extend<T>(draws: seq<T>, used: nat, m: nat, accept: T -> bool)
    requires used + m <= |draws|
    ensures Filter(draws[..used + m], accept) == Filter(draws[..used], accept) + Filter(draws[used..used + m], accept)
  {
    assert draws[..used + m] == draws[..used] + draws[used..used + m];
    FilterAppend(draws[..used], draws[used..used + m], accept);
  }

  /** The prefix lemma both loops end with: enough accepted in a prefix fixes the first `k`. */
  lemma PrefixDecides<T>(draws: seq<T>, used: nat, k: nat, accept: T -> bool)
    requires used <= |draws|
    requires |Filter(draws[..used], accept)| >= k
    ensures |Filter(draws, accept)| >= k
    ensures Filter(draws, accept)[..k] == Filter(draws[..used], accept)[..k]
  {
    assert draws == draws[..used] + draws[used..];
    FilterAppend(draws[..used], draws[used..], accept);
  }

  /** With fewer than `m` candidates left, at most `m - 1` more can ever be accepted. */
  lemma TooFew<T>(draws: seq<T>, used: nat, m: nat, accept: T -> bool)
    requires used <= |draws| && |draws| - used < m
    ensures |Filter(draws, accept)| < |Filter(draws[..used], accept)| + m
  {
    assert draws == draws[..used] + draws[used..];
    FilterAppend(draws[..used], draws[used..], accept);
  }

  /** The whole batches of `k` that fit into `len` draws cover this many of them. */
  function WholeBatches(len: nat, k: nat): (w: nat)
    ensures w <= len
  {
    if k == 0 then 0 else len / k * k
  }

  /** A multiple of a positive `k` below `k` is a non-positive multiple. */
  lemma MultipleBelowOne(a: int, k: int)
    requires k > 0 && a * k < k
    ensures a <= 0
  {
  }

  /** `rounds` whole batches fit into `len` draws; when less than a batch is left over they are all of them. */
  lemma WholeBatchBounds(len: nat, k: nat, rounds: nat)
    requires k > 0 && rounds * k <= len
    ensures rounds * k <= WholeBatches(len, k)
    ensures len - rounds * k < k ==> rounds * k == WholeBatches(len, k)
  {
    var q := len / k;
    assert len == q * k + len % k;
    assert (rounds - q) * k == rounds * k - q * k;
    MultipleBelowOne(rounds - q, k);
    assert (q - rounds) * k == q * k - rounds * k;
    if len - rounds * k < k {
      MultipleBelowOne(q - rounds, k);
    }
  }

  /** Accepted candidates only accumulate: a longer prefix keeps at least as many. */
  lemma FilterPrefixGrows<T>(draws: seq<T>, a: nat, b: nat, accept: T -> bool)
    requires a <= b <= |draws|
    ensures |Filter(draws[..a], accept)| <= |Filter(draws[..b], accept)|
  {
    Extend(draws, a, b - a, accept);
  }

  /**
    The loop of `clipped_spherical_uniform`: every round draws a full batch of
    `k` candidates, so the accumulator may overshoot `k`; the caller slices.
    Returns the accumulator, the candidates consumed and the rounds run.
   */
  method FillByBatches<T>(draws: seq<T>, accept: T -> bool, k: nat)
    returns (r: Option<seq<T>>, used: nat, rounds: nat)
    ensures used == rounds * k && used <= |draws|
    ensures r.Some? ==> |r.value| >= k && r.value == Filter(draws[..used], accept)
    ensures r.Some? ==> |Filter(draws, accept)| >= k
    ensures r.Some? ==> r.value[..k] == Filter(draws, accept)[..k]
    ensures r.Some? && rounds > 0 ==> |Filter(draws[..used - k], accept)| < k
    ensures r.None? ==> |draws| - used < k && |Filter(draws[..used], accept)| < k
    ensures r.Some? <==> |Filter(draws[..WholeBatches(|draws|, k)], accept)| >= k
  {
    var out: seq<T> := [];
    used, rounds := 0, 0;
    while |out| < k
      invariant used == rounds * k && used <= |draws|
      invariant out == Filter(draws[..used], accept)
      invariant rounds > 0 ==> |Filter(draws[..used - k], accept)| < k
      decreases |draws| - used
    {
      if |draws| - used < k {
        WholeBatchBounds(|draws|, k, rounds);
        return None, used, rounds;
      }
      Extend(draws, used, k, accept);
      out := out + Filter(draws[used..used + k], accept);
      assert (rounds + 1) * k == rounds * k + k;
      used, rounds := used + k, rounds + 1;
    }
    PrefixDecides(draws, used, k, accept);
    if k > 0 {
      WholeBatchBounds(|draws|, k, rounds);
      FilterPrefixGrows(draws, used, WholeBatches(|draws|, k), accept);
    }
    r := Some(out);
  }

  /**
    The loop of `normal` and `uniform`: every round draws only the `k - |held|`
    candidates still missing, so the accumulator never exceeds `k`, and the
    last candidate consumed is always one that was kept.
   */
  method FillByRemainder<T>(draws: seq<T>, accept: T -> bool, k: nat)
    returns (r: Option<seq<T>>, used: nat, rounds: nat)
    ensures used <= |draws|
    ensures r.Some? <==> |Filter(draws, accept)| >= k
    ensures r.Some? ==> r.value == Filter(draws[..used], accept) && |r.value| == k
    ensures r.Some? ==> r.value == Filter(draws, accept)[..k]
    ensures r.Some? && k > 0 ==> 0 < used && accept(draws[used - 1])
    ensures (forall i :: 0 <= i < |draws| ==> accept(draws[i])) && k <= |draws| ==>
      r.Some? && used == k && rounds == (if k == 0 then 0 else 1)
  {
    var out: seq<T> := [];
    used, rounds := 0, 0;
    ghost var all := forall i :: 0 <= i < |draws| ==> accept(draws[i]);
    while |out| < k
      invariant used <= |draws|
      invariant out == Filter(draws[..used], accept)
      invariant |out| <= k
      invariant |out| == k && k > 0 ==> 0 < used && accept(draws[used - 1])
      invariant all ==> used == |out| && (if used == 0 then rounds == 0 else rounds == 1 && |out| == k)
      decreases |draws| - used
    {
      var m := k - |out|;
      if |draws| - used < m {
        TooFew(draws, used, m, accept);
        return None, used, rounds;
      }
      var batch := draws[used..used + m];
      var kept := Filter(batch, accept);
      Extend(draws, used, m, accept);
      if all {
        FilterAcceptsAll(batch, accept);
      }
      if |kept| == m {
        FilterKeepsAll(batch, accept);
        assert accept(batch[m - 1]);
      }
      out := out + kept;
      used, rounds := used + m, rounds + 1;
    }
    PrefixDecides(draws, used, k, accept);
    assert out[..k] == out;
    r := Some(out);
  }
}

=== FILE: angles.dfy ===
/**
  `radians` (utils.py): converting an angle, or every angle in a nested
  dict, list or tuple, from degrees to radians, with the flag `degrees`
  (default true) that turns the conversion off, and a trailing positional
  bool that is read as that flag.
 */
module Angles {
  import opened Outcomes
  import opened Values

  /**
    `math.pi`, written as the shortest decimal that reads back as that
    double. The double's exact value differs after the sixteenth digit.
   */
  const Pi: real := 3.141592653589793

  /** `math.radians`: multiplication by pi / 180. */
  function ToRadians(deg: real): real {
    deg * Pi / 180.0
  }

  /** The number a bool, int or float stands for. */
  function NumberValue(v: Value): real
    requires IsNumber(v)
  {
    match v
    case Bool(b) => if b then 1.0 else 0.0
    case Int(i) => i as real
    case Float(f) => f
  }

  /** The values `radians` accepts: numbers, arrays, and dicts, lists and tuples of them. */
  predicate Convertible(v: Value) {
    match v
    case Dict(es) => forall i :: 0 <= i < |es| ==> Convertible(es[i].val)
    case List(xs) => forall i :: 0 <= i < |xs| ==> Convertible(xs[i])
    case Tuple(xs) => forall i :: 0 <= i < |xs| ==> Convertible(xs[i])
    case NdArray(_) => true
    case _ => IsNumber(v)
  }

  /** The shape of a value, forgetting numbers and whether a sequence is a list or a tuple. */
  datatype Shape =
    | Scalar
    | Array(length: nat)
    | Items(children: seq<Shape>)
    | Keyed(keys: seq<Value>, children: seq<Shape>)
    | Unconvertible

  function ShapeOf(v: Value): Shape {
    match v
    case Dict(es) =>
      Keyed(Keys(es), seq(|es|, i requires 0 <= i < |es| => ShapeOf(es[i].val)))
    case List(xs) => Items(seq(|xs|, i requires 0 <= i < |xs| => ShapeOf(xs[i])))
    case Tuple(xs) => Items(seq(|xs|, i requires 0 <= i < |xs| => ShapeOf(xs[i])))
    case NdArray(data) => Array(|data|)
    case _ => if IsNumber(v) then Scalar else Unconvertible
  }

  /** Whether a value holds no tuple anywhere; `radians` hands tuples back as lists. */
  predicate TupleFree(v: Value) {
    match v
    case Dict(es) => forall i :: 0 <= i < |es| ==> TupleFree(es[i].val)
    case List(xs) => forall i :: 0 <= i < |xs| ==> TupleFree(xs[i])
    case Tuple(_) => false
    case _ => true
  }

  /** Whether every number a value holds is a float: no bool or int is left anywhere. */
  predicate FloatLeaves(v: Value) {
    match v
    case Dict(es) => forall i :: 0 <= i < |es| ==> FloatLeaves(es[i].val)
    case List(xs) => forall i :: 0 <= i < |xs| ==> FloatLeaves(xs[i])
    case Tuple(xs) => forall i :: 0 <= i < |xs| ==> FloatLeaves(xs[i])
    case Bool(_) => false
    case Int(_) => false
    case _ => true
  }

  /**
    The numbers a value holds, in order: a number itself, the entries of an
    array, and recursively the items of a list or tuple and the values of a
    dict. Keys are not angles and are not included.
   */
  function Leaves(v: Value): seq<real>
    decreases v, 1
  {
    match v
    case Dict(es) => EntryLeaves(es)
    case List(xs) => ItemLeaves(xs)
    case Tuple(xs) => ItemLeaves(xs)
    case NdArray(data) => data
    case Bool(b) => [if b then 1.0 else 0.0]
    case Int(i) => [i as real]
    case Float(f) => [f]
    case _ => []
  }

  function ItemLeaves(xs: seq<Value>): seq<real>
    decreases xs, 0
  {
    if |xs| == 0 then [] else Leaves(xs[0]) + ItemLeaves(xs[1..])
  }

  function EntryLeaves(es: seq<Entry>): seq<real>
    decreases es, 0
  {
    if |es| == 0 then [] else EntryLeaf(es[0]) + EntryLeaves(es[1..])
  }

  function EntryLeaf(e: Entry): seq<real>
    decreases e, 0
  {
    Leaves(e.val)
  }

  /** The numbers after conversion: each turned into radians with `degrees`, all kept without. */
  function Converted(xs: seq<real>, degrees: bool): seq<real> {
    if degrees then ArrayToRadians(xs) else xs
  }

  /** Converting numbers one block at a time converts them all. */
  lemma ConvertedAppend(a: seq<real>, b: seq<real>, degrees: bool)
    ensures Converted(a + b, degrees) == Converted(a, degrees) + Converted(b, degrees)
  {
    if degrees {
      assert ArrayToRadians(a + b) == ArrayToRadians(a) + ArrayToRadians(b);
    }
  }

  /** A number in radians, as a float, or the number itself without `degrees`. */
  function NumberToRadians(v: Value, degrees: bool): (r: Value)
    requires IsNumber(v)
    ensures ShapeOf(r) == Scalar && Leaves(r) == Converted(Leaves(v), degrees)
  {
    assert Leaves(v) == [NumberValue(v)];
    assert Converted([NumberValue(v)], degrees) == [if degrees then ToRadians(NumberValue(v)) else NumberValue(v)];
    if degrees then Float(ToRadians(NumberValue(v))) else v
  }

  lemma SameShapeItems(xs: seq<Value>, ys: seq<Value>)
    requires |ys| == |xs| && forall i :: 0 <= i < |xs| ==> ShapeOf(ys[i]) == ShapeOf(xs[i])
    ensures ShapeOf(List(ys)) == ShapeOf(List(xs)) == ShapeOf(Tuple(xs))
  {
  }

  lemma SameShapeEntries(es: seq<Entry>, es': seq<Entry>)
    requires |es'| == |es|
    requires forall i :: 0 <= i < |es| ==>
      es'[i].key == es[i].key && ShapeOf(es'[i].val) == ShapeOf(es[i].val)
    ensures ShapeOf(Dict(es')) == ShapeOf(Dict(es))
  {
  }

  /**
    `radians(v, degrees=degrees)` with one positional argument: a number is
    converted (or kept, without `degrees`), a dict keeps its keys, a list or
    tuple becomes a list of converted items, an array is converted
    element-wise, and any other type raises. The first failing item raises.
   */
  function RadiansOf(v: Value, degrees: bool): (r: Result<Value>)
    ensures r.Ok? <==> Convertible(v)
    ensures r.Ok? ==> ShapeOf(r.value) == ShapeOf(v)
    ensures r.Ok? ==> Leaves(r.value) == Converted(Leaves(v), degrees)
    ensures r.Ok? && IsSequence(v) ==> r.value.List?
    ensures r.Ok? && v.Dict? ==> r.value.Dict? && |r.value.entries| == |v.entries|
    ensures r.Ok? && IsSequence(v) ==> |r.value.items| == |v.items|
    ensures r.Ok? ==> TupleFree(r.value)
    ensures r.Ok? && degrees ==> FloatLeaves(r.value)
    ensures r.Ok? && IsSequence(v) ==>
      forall i :: 0 <= i < |v.items| ==> RadiansOf(v.items[i], degrees) == Ok(r.value.items[i])
    ensures r.Ok? && v.Dict? ==>
      forall i :: 0 <= i < |v.entries| ==> RadiansOf(v.entries[i].val, degrees) == Ok(r.value.entries[i].val)
    ensures IsNumber(v) ==>
      r == Ok(if degrees then Float(ToRadians(NumberValue(v))) else v)
    decreases v, 1
  {
    if v.Dict? then DictToRadians(v, degrees)
    else if IsSequence(v) then SequenceToRadians(v, degrees)
    else LeafToRadians(v, degrees)
  }

  /** A value that is neither a dict, a list nor a tuple: a number, an array, or something `radians` refuses. */
  function LeafToRadians(v: Value, degrees: bool): (r: Result<Value>)
    requires !v.Dict? && !IsSequence(v)
    ensures r.Ok? <==> Convertible(v)
    ensures r.Ok? ==> ShapeOf(r.value) == ShapeOf(v) && TupleFree(r.value)
    ensures r.Ok? ==> Leaves(r.value) == Converted(Leaves(v), degrees)
    ensures r.Ok? && degrees ==> FloatLeaves(r.value)
    ensures r.Err? ==> r.error == CannotConvertToRadians
    ensures IsNumber(v) ==>
      r == Ok(if degrees then Float(ToRadians(NumberValue(v))) else v)
  {
    match v
    case NdArray(data) => Ok(if degrees then NdArray(ArrayToRadians(data)) else v)
    case Bool(_) => Ok(NumberToRadians(v, degrees))
    case Int(_) => Ok(NumberToRadians(v, degrees))
    case Float(_) => Ok(NumberToRadians(v, degrees))
    case _ => Err(CannotConvertToRadians)
  }

  /** A dict with every value converted and its keys kept. */
  function DictToRadians(v: Value, degrees: bool): (r: Result<Value>)
    requires v.Dict?
    ensures r.Ok? <==> Convertible(v)
    ensures r.Ok? ==> r.value.Dict? && ShapeOf(r.value) == ShapeOf(v) && |r.value.entries| == |v.entries|
    ensures r.Ok? ==> Leaves(r.value) == Converted(Leaves(v), degrees)
    ensures r.Ok? ==> TupleFree(r.value)
    ensures r.Ok? && degrees ==> FloatLeaves(r.value)
    ensures r.Ok? ==>
      forall i :: 0 <= i < |v.entries| ==> RadiansOf(v.entries[i].val, degrees) == Ok(r.value.entries[i].val)
    decreases v, 0
  {
    var es' :- RadiansEntries(v.entries, degrees);
    SameShapeEntries(v.entries, es');
    Ok(Dict(es'))
  }

  /** A list or tuple with every item converted, handed back as a list. */
  function SequenceToRadians(v: Value, degrees: bool): (r: Result<Value>)
    requires IsSequence(v)
    ensures r.Ok? <==> Convertible(v)
    ensures r.Ok? ==> r.value.List? && ShapeOf(r.value) == ShapeOf(v) && |r.value.items| == |v.items|
    ensures r.Ok? ==> Leaves(r.value) == Converted(Leaves(v), degrees)
    ensures r.Ok? ==> TupleFree(r.value)
    ensures r.Ok? && degrees ==> FloatLeaves(r.value)
    ensures r.Ok? ==>
      forall i :: 0 <= i < |v.items| ==> RadiansOf(v.items[i], degrees) == Ok(r.value.items[i])
    decreases v, 0
  {
    var ys :- RadiansItems(v.items, degrees);
    SameShapeItems(v.items, ys);
    Ok(List(ys))
  }

  /** An array converted entry by entry, keeping its length and order. */
  function ArrayToRadians(data: seq<real>): (r: seq<real>)
    ensures |r| == |data| && forall i :: 0 <= i < |data| ==> r[i] == ToRadians(data[i])
  {
    seq(|data|, i requires 0 <= i < |data| => ToRadians(data[i]))
  }

  /** Every item converted in order; the first item that cannot be converted raises. */
  function RadiansItems(xs: seq<Value>, degrees: bool): (r: Result<seq<Value>>)
    ensures r.Ok? <==> forall i :: 0 <= i < |xs| ==> Convertible(xs[i])
    ensures r.Ok? ==>
      && |r.value| == |xs|
      && forall i :: 0 <= i < |xs| ==>
           && ShapeOf(r.value[i]) == ShapeOf(xs[i])
           && Leaves(r.value[i]) == Converted(Leaves(xs[i]), degrees)
    ensures r.Ok? ==> ItemLeaves(r.value) == Converted(ItemLeaves(xs), degrees)
    ensures r.Ok? ==> forall i :: 0 <= i < |xs| ==> RadiansOf(xs[i], degrees) == Ok(r.value[i])
    ensures r.Ok? ==> forall i :: 0 <= i < |xs| ==> TupleFree(r.value[i])
    ensures r.Ok? && degrees ==> forall i :: 0 <= i < |xs| ==> FloatLeaves(r.value[i])
    decreases xs, 0
  {
    if |xs| == 0 then Ok([])
    else
      var y :- RadiansOf(xs[0], degrees);
      var ys :- RadiansItems(xs[1..], degrees);
      assert forall i :: 1 <= i < |xs| ==> xs[i] == xs[1..][i - 1];
      assert ([y] + ys)[0] == y && ([y] + ys)[1..] == ys;
      ConvertedAppend(Leaves(xs[0]), ItemLeaves(xs[1..]), degrees);
      Ok([y] + ys)
  }

  /** Every value of a dict converted in order, its key kept; the first value that cannot be converted raises. */
  function RadiansEntries(es: seq<Entry>, degrees: bool): (r: Result<seq<Entry>>)
    ensures r.Ok? <==> forall i :: 0 <= i < |es| ==> Convertible(es[i].val)
    ensures r.Ok? ==>
      && |r.value| == |es|
      && forall i :: 0 <= i < |es| ==>
           r.value[i].key == es[i].key && ShapeOf(r.value[i].val) == ShapeOf(es[i].val)
    ensures r.Ok? ==> EntryLeaves(r.value) == Converted(EntryLeaves(es), degrees)
    ensures r.Ok? ==> forall i :: 0 <= i < |es| ==> RadiansEntry(es[i], degrees) == Ok(r.value[i])
    ensures r.Ok? ==> forall i :: 0 <= i < |es| ==> TupleFree(r.value[i].val)
    ensures r.Ok? && degrees ==> forall i :: 0 <= i < |es| ==> FloatLeaves(r.value[i].val)
    decreases es, 0
  {
    if |es| == 0 then Ok([])
    else
      var e :- RadiansEntry(es[0], degrees);
      var rest :- RadiansEntries(es[1..], degrees);
      assert forall i :: 1 <= i < |es| ==> es[i] == es[1..][i - 1];
      assert ([e] + rest)[0] == e && ([e] + rest)[1..] == rest;
      ConvertedAppend(EntryLeaf(es[0]), EntryLeaves(es[1..]), degrees);
      Ok([e] + rest)
  }

  function RadiansEntry(e: Entry, degrees: bool): (r: Result<Entry>)
    ensures r.Ok? <==> Convertible(e.val)
    ensures r.Ok? ==> r.value.key == e.key && ShapeOf(r.value.val) == ShapeOf(e.val)
    ensures r.Ok? ==> EntryLeaf(r.value) == Converted(EntryLeaf(e), degrees)
    ensures r.Ok? ==> RadiansOf(e.val, degrees) == Ok(r.value.val)
    ensures r.Ok? ==> TupleFree(r.value.val) && (degrees ==> FloatLeaves(r.value.val))
    decreases e, 0
  {
    var v :- RadiansOf(e.val, degrees);
    Ok(Entry(e.key, v))
  }

  /**
    `radians(*args, degrees=degrees)`. One argument is converted on its own;
    with more, a trailing bool is removed and becomes the flag, and otherwise
    every argument is converted into one list. No argument fails on `args[-1]`.
   */
  function Radians(args: seq<Value>, degrees: bool := true): (r: Result<Value>)
    ensures |args| == 0 ==> r == Err(IndexOutOfRange)
    ensures |args| == 1 ==> r == RadiansOf(args[0], degrees)
    ensures |args| >= 2 && args[|args| - 1].Bool? ==>
      r == Radians(args[..|args| - 1], args[|args| - 1].b)
    ensures |args| >= 2 && !args[|args| - 1].Bool? ==>
      && (r.Ok? <==> forall i :: 0 <= i < |args| ==> Convertible(args[i]))
      && (r.Ok? ==>
            && r.value.List?
            && |r.value.items| == |args|
            && forall i :: 0 <= i < |args| ==>
                 && ShapeOf(r.value.items[i]) == ShapeOf(args[i])
                 && Leaves(r.value.items[i]) == Converted(Leaves(args[i]), degrees)
                 && RadiansOf(args[i], degrees) == Ok(r.value.items[i]))
    ensures r.Ok? ==> TupleFree(r.value)
    decreases |args|
  {
    if |args| == 1 then
      RadiansOf(args[0], degrees)
    else if |args| == 0 then
      Err(IndexOutOfRange)
    else if args[|args| - 1].Bool? then
      Radians(args[..|args| - 1], args[|args| - 1].b)
    else
      var ys :- RadiansItems(args, degrees);
      Ok(List(ys))
  }

  // ---------------------------------------------------------------------
  // Properties

  /** A trailing bool is consumed as the flag, overriding the keyword. */
  lemma TrailingFlag(args: seq<Value>, b: bool, degrees: bool)
    requires |args| >= 1
    ensures Radians(args + [Bool(b)], degrees) == Radians(args, b)
  {
  }

  /**
    Bools are stripped from the right one at a time, each overriding the
    last, so of a run of trailing bools the one next to the angle decides.
   */
  lemma {:induction false} FlagNextToAngleWins(x: Value, flags: seq<bool>, degrees: bool)
    requires |flags| >= 1
    ensures Radians([x] + seq(|flags|, i requires 0 <= i < |flags| => Bool(flags[i])), degrees)
      == RadiansOf(x, flags[0])
    decreases |flags|
  {
    var bs := seq(|flags|, i requires 0 <= i < |flags| => Bool(flags[i]));
    var last := flags[|flags| - 1];
    var front := flags[..|flags| - 1];
    var fs := seq(|front|, i requires 0 <= i < |front| => Bool(front[i]));
    assert [x] + bs == ([x] + fs) + [Bool(last)];
    TrailingFlag([x] + fs, last, degrees);
    if |flags| == 1 {
      assert [x] + fs == [x];
    } else {
      FlagNextToAngleWins(x, front, last);
    }
  }

  /** A lone bool is not a flag: it is the angle 0 or 1. */
  lemma LoneBoolIsAnAngle(b: bool, degrees: bool)
    ensures Radians([Bool(b)], degrees)
      == Ok(if degrees then Float(ToRadians(if b then 1.0 else 0.0)) else Bool(b))
  {
  }

  /** With the default `degrees`, `k` half turns in degrees are `k` times pi in radians. */
  lemma HalfTurns(k: real)
    ensures Radians([Float(180.0 * k)]) == Ok(Float(k * Pi))
  {
  }

  /** Without `degrees` the conversion is the identity on values holding no tuple. */
  lemma {:induction false} IdentityWithoutDegrees(v: Value)
    requires Convertible(v) && TupleFree(v)
    ensures RadiansOf(v, false) == Ok(v)
    decreases v, 1
  {
    match v
    case Dict(es) =>
      IdentityEntries(es);
    case List(xs) =>
      IdentityItems(xs);
    case _ =>
  }

  lemma {:induction false} IdentityItems(xs: seq<Value>)
    requires forall i :: 0 <= i < |xs| ==> Convertible(xs[i]) && TupleFree(xs[i])
    ensures RadiansItems(xs, false) == Ok(xs)
    decreases xs, 0
  {
    if |xs| > 0 {
      IdentityWithoutDegrees(xs[0]);
      assert forall i :: 1 <= i < |xs| ==> xs[1..][i - 1] == xs[i];
      IdentityItems(xs[1..]);
      assert [xs[0]] + xs[1..] == xs;
    }
  }

  lemma {:induction false} IdentityEntries(es: seq<Entry>)
    requires forall i :: 0 <= i < |es| ==> Convertible(es[i].val) && TupleFree(es[i].val)
    ensures RadiansEntries(es, false) == Ok(es)
    decreases es, 0
  {
    if |es| > 0 {
      IdentityEntry(es[0]);
      assert forall i :: 1 <= i < |es| ==> es[1..][i - 1] == es[i];
      IdentityEntries(es[1..]);
      assert [es[0]] + es[1..] == es;
    }
  }

  lemma {:induction false} IdentityEntry(e: Entry)
    requires Convertible(e.val) && TupleFree(e.val)
    ensures RadiansEntry(e, false) == Ok(e)
    decreases e, 0
  {
    IdentityWithoutDegrees(e.val);
  }
}

=== FILE: broadcast.dfy ===
/**
  `tuplify` and `listify` (utils.py): broadcasting a value to `n` copies
  unless it already is a sequence.
 */
module Broadcast {
  import opened Outcomes
  import opened Values

  /** `range(n)` is empty for a negative `n`, so a negative count means none. */
  function Count(n: int): nat {
    if n < 0 then 0 else n
  }

  /** `[v] * n`, or the generator `v for _ in range(n)`. */
  function Copies(v: Value, n: int): (xs: seq<Value>)
    ensures |xs| == Count(n)
    ensures forall i :: 0 <= i < |xs| ==> xs[i] == v
  {
    if n <= 0 then [] else [v] + Copies(v, n - 1)
  }

  /**
    `tuplify(t, n)`: a list or tuple must already hold `n` items (the
    assertion) and is returned as a tuple of the same items; anything else,
    strings included, is repeated `n` times.
   */
  function Tuplify(t: Value, n: int := 1): (r: Result<Value>)
    ensures IsSequence(t) ==> (r.Ok? <==> |t.items| == n)
    ensures IsSequence(t) && r.Ok? ==> r.value == Tuple(t.items)
    ensures IsSequence(t) && r.Err? ==> r.error == LengthMismatch(n, |t.items|)
    ensures !IsSequence(t) ==>
      && r.Ok?
      && r.value.Tuple?
      && |r.value.items| == Count(n)
      && forall i :: 0 <= i < |r.value.items| ==> r.value.items[i] == t
  {
    if IsSequence(t) then
      if |t.items| == n then Ok(Tuple(t.items)) else Err(LengthMismatch(n, |t.items|))
    else
      Ok(Tuple(Copies(t, n)))
  }

  /**
    `listify(x, n)`: a list is returned as it is, whatever its length; any
    other value, a tuple included, becomes a list of `n` copies of it.
   */
  function Listify(x: Value, n: int := 1): (r: Value)
    ensures x.List? ==> r == x
    ensures !x.List? ==>
      && r.List?
      && |r.items| == Count(n)
      && forall i :: 0 <= i < |r.items| ==> r.items[i] == x
  {
    if x.List? then x else List(Copies(x, n))
  }

  /** With a non-negative count a successful `tuplify` always yields exactly `n` items. */
  lemma TuplifyLength(t: Value, n: int)
    requires n >= 0 && Tuplify(t, n).Ok?
    ensures Tuplify(t, n).value.Tuple? && |Tuplify(t, n).value.items| == n
  {
  }

  /** Tuplifying twice with the same non-negative count changes nothing more. */
  lemma TuplifyIdempotent(t: Value, n: int)
    requires n >= 0 && Tuplify(t, n).Ok?
    ensures Tuplify(Tuplify(t, n).value, n) == Tuplify(t, n)
  {
  }

  /**
    With a negative count a scalar becomes the empty tuple, which the same
    call then refuses: `tuplify` is not idempotent there.
   */
  lemma TuplifyNegativeCount(t: Value, n: int)
    requires n < 0 && !IsSequence(t)
    ensures Tuplify(t, n) == Ok(Tuple([]))
    ensures Tuplify(Tuplify(t, n).value, n) == Err(LengthMismatch(n, 0))
  {
  }

  /** The result of `listify` is a list, which any later `listify` keeps as is. */
  lemma ListifyIdempotent(x: Value, n: int, m: int)
    ensures Listify(Listify(x, n), m) == Listify(x, n)
  {
  }
}

=== FILE: coercion.dfy ===
/**
  `_array` (utils.py): turning the loose positional arguments of the point and
  vector constructors into one array, including the whitespace-separated
  coordinate strings and the 14-column lines copied from 3D Slicer's
  annotation window.
 */
module Coercion {
  import opened Outcomes
  import opened Values

  /** The characters Python's `str.split()` treats as separators. */
  predicate IsSpace(c: char) {
    c == ' ' || c == '\t' || c == '\n' || c == '\r' || c == '\U{000B}' || c == '\U{000C}'
    || c == '\U{001C}' || c == '\U{001D}' || c == '\U{001E}' || c == '\U{001F}'
    || c == '\U{0085}' || c == '\U{00A0}'
  }

  /** A token `split()` can produce: non-empty and free of separators. */
  predicate IsToken(w: string) {
    |w| > 0 && forall i :: 0 <= i < |w| ==> !IsSpace(w[i])
  }

  function SkipSpaces(s: string): (t: string)
    ensures |t| <= |s|
    ensures |t| == 0 || !IsSpace(t[0])
  {
    if |s| > 0 && IsSpace(s[0]) then SkipSpaces(s[1..]) else s
  }

  /** Length of the run of non-separators that starts `s`. */
  function WordLength(s: string): (k: nat)
    ensures k <= |s|
    ensures forall i :: 0 <= i < k ==> !IsSpace(s[i])
    ensures k == |s| || IsSpace(s[k])
  {
    if |s| > 0 && !IsSpace(s[0]) then 1 + WordLength(s[1..]) else 0
  }

  /** The characters of `s` that are not separators, in order. */
  function NonSpace(s: string): string {
    if |s| == 0 then "" else (if IsSpace(s[0]) then "" else [s[0]]) + NonSpace(s[1..])
  }

  /** The tokens written one after another, with nothing between them. */
  function Concat(tokens: seq<string>): string {
    if |tokens| == 0 then "" else tokens[0] + Concat(tokens[1..])
  }

  /**
    Python's `s.split()`: the maximal runs of non-separators, in order. The
    tokens hold every non-separator of `s` and nothing else, so a string with
    any non-separator yields at least one token.
   */
  function Split(s: string): (tokens: seq<string>)
    ensures forall i :: 0 <= i < |tokens| ==> IsToken(tokens[i])
    ensures Concat(tokens) == NonSpace(s)
    decreases |s|
  {
    var t := SkipSpaces(s);
    NonSpaceSkipSpaces(s);
    if |t| == 0 then []
    else
      var k := WordLength(t);
      assert t == t[..k] + t[k..];
      NonSpaceAppend(t[..k], t[k..]);
      NonSpaceOfWord(t[..k]);
      [t[..k]] + Split(t[k..])
  }

  lemma {:induction false} NonSpaceSkipSpaces(s: string)
    ensures NonSpace(SkipSpaces(s)) == NonSpace(s)
    decreases |s|
  {
    if |s| > 0 && IsSpace(s[0]) {
      NonSpaceSkipSpaces(s[1..]);
    }
  }

  lemma {:induction false} NonSpaceAppend(a: string, b: string)
    ensures NonSpace(a + b) == NonSpace(a) + NonSpace(b)
    decreases |a|
  {
    if |a| == 0 {
      assert a + b == b;
    } else {
      assert (a + b)[1..] == a[1..] + b;
      NonSpaceAppend(a[1..], b);
    }
  }

  lemma {:induction false} NonSpaceOfWord(w: string)
    requires forall i :: 0 <= i < |w| ==> !IsSpace(w[i])
    ensures NonSpace(w) == w
    decreases |w|
  {
    if |w| > 0 {
      NonSpaceOfWord(w[1..]);
      assert [w[0]] + w[1..] == w;
    }
  }

  /** The tokens written with a single space between neighbours, as `" ".join` writes them. */
  function Join(tokens: seq<string>): string
  {
    if |tokens| == 0 then ""
    else if |tokens| == 1 then tokens[0]
    else tokens[0] + " " + Join(tokens[1..])
  }

  /** Whether `e` is the error for the first of `tokens` that `parse` rejects. */
  predicate FirstRejected(tokens: seq<string>, parse: string -> Option<real>, e: Error) {
    exists i ::
      && 0 <= i < |tokens|
      && parse(tokens[i]).None?
      && e == NotAFloat(tokens[i])
      && forall j :: 0 <= j < i ==> parse(tokens[j]).Some?
  }

  /** Every token read as a float, in order; the first token `parse` rejects raises. */
  function ParseAll(tokens: seq<string>, parse: string -> Option<real>): (r: Result<seq<real>>)
    ensures r.Ok? <==> forall i :: 0 <= i < |tokens| ==> parse(tokens[i]).Some?
    ensures r.Ok? ==>
      && |r.value| == |tokens|
      && forall i :: 0 <= i < |tokens| ==> Some(r.value[i]) == parse(tokens[i])
    ensures r.Err? ==> FirstRejected(tokens, parse, r.error)
  {
    if |tokens| == 0 then Ok([])
    else
      match parse(tokens[0])
      case None => Err(NotAFloat(tokens[0]))
      case Some(x) =>
        var rest :- ParseAll(tokens[1..], parse);
        assert forall i :: 1 <= i < |tokens| ==> tokens[i] == tokens[1..][i - 1];
        Ok([x] + rest)
  }

  /** What `_array` returns: parsed coordinates, the lone argument, or all arguments packed. */
  datatype Coerced = Parsed(coords: seq<real>) | Same(arg: Value) | Packed(args: seq<Value>)

  /**
    The lone-string branch of `_array`, given the string `text` and its
    tokens `Split(text)`.
   */
  function FromTokens(tokens: seq<string>, text: string, parse: string -> Option<real>): (r: Result<Coerced>)
    ensures (|tokens| == 2 || |tokens| == 3) ==>
      && (r.Ok? <==> forall i :: 0 <= i < |tokens| ==> parse(tokens[i]).Some?)
      && (r.Ok? ==>
            && r.value.Parsed?
            && |r.value.coords| == |tokens|
            && forall i :: 0 <= i < |tokens| ==> Some(r.value.coords[i]) == parse(tokens[i]))
      && (r.Err? ==> FirstRejected(tokens, parse, r.error))
    ensures |tokens| == 14 ==>
      && (r.Ok? <==> forall i :: 1 <= i < 4 ==> parse(tokens[i]).Some?)
      && (r.Ok? ==>
            && r.value.Parsed?
            && |r.value.coords| == 3
            && forall i :: 0 <= i < 3 ==> Some(r.value.coords[i]) == parse(tokens[i + 1]))
      && (r.Err? ==> FirstRejected(tokens[1..4], parse, r.error))
    ensures |tokens| != 2 && |tokens| != 3 && |tokens| != 14 ==> r == Err(CannotConvertString(text))
  {
    if |tokens| == 2 || |tokens| == 3 then
      var xs :- ParseAll(tokens, parse);
      Ok(Parsed(xs))
    else if |tokens| == 14 then
      assert forall i :: 0 <= i < 3 ==> tokens[1..4][i] == tokens[i + 1];
      var xs :- ParseAll(tokens[1..4], parse);
      Ok(Parsed(xs))
    else
      Err(CannotConvertString(text))
  }

  /**
    `_array(args)`. A lone string is split on whitespace: two or three tokens
    are all parsed, fourteen tokens (a Slicer annotation line) give tokens 1..3,
    and any other count is refused. A lone non-string is returned as given;
    several arguments are packed in order; no argument at all fails on
    `args[0]`. `float()` is the parameter `parse`.
   */
  function ToArray(args: seq<Value>, parse: string -> Option<real>): (r: Result<Coerced>)
    ensures |args| == 0 ==> r == Err(IndexOutOfRange)
    ensures |args| == 1 && args[0].Str? ==> r == FromTokens(Split(args[0].s), args[0].s, parse)
    ensures |args| == 1 && !args[0].Str? ==> r == Ok(Same(args[0]))
    ensures |args| >= 2 ==> r == Ok(Packed(args))
  {
    if |args| == 1 && args[0].Str? then
      FromTokens(Split(args[0].s), args[0].s, parse)
    else if |args| == 1 then
      Ok(Same(args[0]))
    else if |args| == 0 then
      Err(IndexOutOfRange)
    else
      Ok(Packed(args))
  }

  // ---------------------------------------------------------------------
  // Splitting undoes joining

  lemma {:induction false} WordLengthOfToken(w: string, rest: string)
    requires IsToken(w)
    requires |rest| == 0 || IsSpace(rest[0])
    ensures WordLength(w + rest) == |w|
    decreases |w|
  {
    var s := w + rest;
    if |w| == 1 {
      assert s[1..] == rest;
      assert !IsSpace(s[0]);
    } else {
      assert s[1..] == w[1..] + rest;
      assert !IsSpace(s[0]);
      WordLengthOfToken(w[1..], rest);
    }
  }

  lemma SplitSkipsLeadingSpace(s: string)
    ensures Split(" " + s) == Split(s)
  {
    assert (" " + s)[1..] == s;
  }

  /** Whether `s` consists of separators only. */
  predicate IsBlank(s: string) {
    forall i :: 0 <= i < |s| ==> IsSpace(s[i])
  }

  /** Separators in front of a string do not change its split. */
  lemma {:induction false} SplitSkipsBlank(lead: string, s: string)
    requires IsBlank(lead)
    ensures Split(lead + s) == Split(s)
    decreases |lead|
  {
    if |lead| == 0 {
      assert lead + s == s;
    } else {
      var t := lead + s;
      assert t[1..] == lead[1..] + s;
      assert IsSpace(t[0]);
      assert SkipSpaces(t) == SkipSpaces(t[1..]);
      assert Split(t) == Split(t[1..]);
      SplitSkipsBlank(lead[1..], s);
    }
  }

  /**
    Tokens laid out with a run of separators after each: `ws[0] + gaps[0] +
    ws[1] + gaps[1] + ...`. A tab-separated line and `" ".join(ws)` are both
    layouts.
   */
  function Layout(ws: seq<string>, gaps: seq<string>): string
    requires |gaps| == |ws|
  {
    if |ws| == 0 then "" else ws[0] + (gaps[0] + Layout(ws[1..], gaps[1..]))
  }

  /** The gaps a layout may use: separators only, and at least one between two tokens. */
  predicate Gaps(gaps: seq<string>) {
    && (forall i :: 0 <= i < |gaps| ==> IsBlank(gaps[i]))
    && (forall i :: 0 <= i < |gaps| - 1 ==> |gaps[i]| > 0)
  }

  /**
    Splitting recovers the tokens of any layout, whatever separators it uses
    and however much of them, with or without leading separators.
   */
  lemma {:induction false} SplitLayout(lead: string, ws: seq<string>, gaps: seq<string>)
    requires IsBlank(lead) && |gaps| == |ws| && Gaps(gaps)
    requires forall i :: 0 <= i < |ws| ==> IsToken(ws[i])
    ensures Split(lead + Layout(ws, gaps)) == ws
    decreases |ws|
  {
    SplitSkipsBlank(lead, Layout(ws, gaps));
    if |ws| == 0 {
      assert Split("") == [];
    } else {
      assert Gaps(gaps[1..]) by {
        assert forall i :: 0 <= i < |gaps[1..]| ==> gaps[1..][i] == gaps[i + 1];
      }
      assert forall i :: 0 <= i < |ws[1..]| ==> ws[1..][i] == ws[i + 1];
      SplitLayout("", ws[1..], gaps[1..]);
      assert "" + Layout(ws[1..], gaps[1..]) == Layout(ws[1..], gaps[1..]);
      SplitLayoutStep(ws, gaps);
    }
  }

  lemma SplitLayoutStep(ws: seq<string>, gaps: seq<string>)
    requires |ws| > 0 && |gaps| == |ws| && Gaps(gaps) && IsToken(ws[0])
    requires Split(Layout(ws[1..], gaps[1..])) == ws[1..]
    ensures Split(Layout(ws, gaps)) == ws
  {
    var rest := Layout(ws[1..], gaps[1..]);
    var after := gaps[0] + rest;
    assert |after| == 0 || IsSpace(after[0]) by {
      if |gaps[0]| == 0 {
        assert |ws| == 1 && rest == "";
      } else {
        assert after[0] == gaps[0][0];
      }
    }
    SplitToken(ws[0], after);
    SplitSkipsBlank(gaps[0], rest);
    assert [ws[0]] + ws[1..] == ws;
  }

  /** A leading token followed by a separator (or nothing) is split off whole. */
  lemma SplitToken(w: string, rest: string)
    requires IsToken(w)
    requires |rest| == 0 || IsSpace(rest[0])
    ensures Split(w + rest) == [w] + Split(rest)
  {
    var s := w + rest;
    assert SkipSpaces(s) == s by {
      assert !IsSpace(s[0]);
    }
    WordLengthOfToken(w, rest);
    assert s[..|w|] == w;
    assert s[|w|..] == rest;
  }

  /** `" ".join(ws).split() == ws` whenever every `w` in `ws` is a token. */
  lemma {:induction false} SplitJoin(ws: seq<string>)
    requires forall i :: 0 <= i < |ws| ==> IsToken(ws[i])
    ensures Split(Join(ws)) == ws
    decreases |ws|
  {
    if |ws| == 0 {
      assert Split("") == [];
    } else if |ws| == 1 {
      SplitJoinSingle(ws);
    } else {
      var tail := ws[1..];
      assert forall i :: 0 <= i < |tail| ==> IsToken(tail[i]);
      SplitJoin(tail);
      SplitJoinStep(ws);
    }
  }

  lemma SplitJoinSingle(ws: seq<string>)
    requires |ws| == 1 && IsToken(ws[0])
    ensures Split(Join(ws)) == ws
  {
    SplitToken(ws[0], "");
    calc {
      Split(Join(ws));
      { assert ws[0] + "" == ws[0]; }
      Split(ws[0] + "");
      [ws[0]] + Split("");
      { assert Split("") == []; }
      [ws[0]];
      { Singleton(ws); }
      ws;
    }
  }

  lemma SplitJoinStep(ws: seq<string>)
    requires |ws| > 1 && IsToken(ws[0])
    requires Split(Join(ws[1..])) == ws[1..]
    ensures Split(Join(ws)) == ws
  {
    var tail := ws[1..];
    SplitSkipsLeadingSpace(Join(tail));
    JoinCons(ws);
    SplitToken(ws[0], " " + Join(tail));
    calc {
      Split(Join(ws));
      Split(ws[0] + (" " + Join(tail)));
      [ws[0]] + Split(" " + Join(tail));
      [ws[0]] + Split(Join(tail));
      [ws[0]] + tail;
      ws;
    }
  }

  lemma Singleton<T>(xs: seq<T>)
    requires |xs| == 1
    ensures [xs[0]] == xs
  {
  }

  lemma JoinCons(ws: seq<string>)
    requires |ws| > 1
    ensures Join(ws) == ws[0] + (" " + Join(ws[1..]))
    ensures ws == [ws[0]] + ws[1..]
  {
    assert ws[0] + " " + Join(ws[1..]) == ws[0] + (" " + Join(ws[1..]));
  }

  lemma SplitThree(x: string, y: string, z: string)
    requires IsToken(x) && IsToken(y) && IsToken(z)
    ensures Split(x + " " + y + " " + z) == [x, y, z]
  {
    var ws := [x, y, z];
    assert ws[1..] == [y, z];
    assert ws[1..][1..] == [z];
    assert Join([z]) == z;
    assert Join([y, z]) == y + " " + z;
    assert x + " " + (y + " " + z) == x + " " + y + " " + z;
    SplitJoin(ws);
  }

  /** A three-coordinate string `"x y z"` parses to its three coordinates. */
  lemma ThreeCoordinates(x: string, y: string, z: string, parse: string -> Option<real>)
    requires IsToken(x) && IsToken(y) && IsToken(z)
    requires parse(x).Some? && parse(y).Some? && parse(z).Some?
    ensures ToArray([Str(x + " " + y + " " + z)], parse)
      == Ok(Parsed([parse(x).value, parse(y).value, parse(z).value]))
  {
    var ws := [x, y, z];
    var text := x + " " + y + " " + z;
    SplitThree(x, y, z);
    var r := FromTokens(ws, text, parse);
    assert r.Ok? by {
      assert forall i :: 0 <= i < |ws| ==> parse(ws[i]).Some?;
    }
    assert r.value.coords == [parse(x).value, parse(y).value, parse(z).value];
  }

  /**
    A Slicer annotation line: whatever separators lie between its fourteen
    columns (tabs, when copied from the annotation window), only columns
    1..3 are read, so it coerces exactly as `"x y z"` of those three columns
    would.
   */
  lemma SlicerLine(lead: string, ws: seq<string>, gaps: seq<string>, parse: string -> Option<real>)
    requires |ws| == 14 && |gaps| == 14 && IsBlank(lead) && Gaps(gaps)
    requires forall i :: 0 <= i < |ws| ==> IsToken(ws[i])
    ensures ToArray([Str(lead + Layout(ws, gaps))], parse) == ToArray([Str(Join(ws[1..4]))], parse)
  {
    var line, coords := lead + Layout(ws, gaps), Join(ws[1..4]);
    SplitLayout(lead, ws, gaps);
    SplitJoin(ws[1..4]);
    var r, r' := FromTokens(ws, line, parse), FromTokens(ws[1..4], coords, parse);
    assert ToArray([Str(line)], parse) == r;
    assert ToArray([Str(coords)], parse) == r';
    assert |ws[1..4]| == 3;
  }
}

=== FILE: geometry.dfy ===
/**
  The part of the point and vector model that the samplers use: raw
  coordinates, the closure rules `point + vector -> point` and
  `point - point -> vector`, and the squared norm. Homogeneous weights,
  rotations and frame transforms live in core.py, which is not part of this
  model.
 */
module Geometry {

  datatype Point3D = Point3D(x: real, y: real, z: real)

  datatype Vector3D = Vector3D(x: real, y: real, z: real)

  /** `p + v`: a point moved by a vector. */
  function Plus(p: Point3D, v: Vector3D): Point3D {
    Point3D(p.x + v.x, p.y + v.y, p.z + v.z)
  }

  /** `p - q`: the vector from `q` to `p`. */
  function Minus(p: Point3D, q: Point3D): Vector3D {
    Vector3D(p.x - q.x, p.y - q.y, p.z - q.z)
  }

  /** Moving `p` by `v` and taking the difference to `p` gives `v` back. */
  lemma PlusMinus(p: Point3D, v: Vector3D)
    ensures Minus(Plus(p, v), p) == v
    ensures Plus(p, Minus(Plus(p, v), p)) == Plus(p, v)
  {
  }

  function NormSq(v: Vector3D): (s: real)
    ensures s >= 0.0
  {
    v.x * v.x + v.y * v.y + v.z * v.z
  }

  /**
    `np.linalg.norm(v) <= radius`. The norm is the non-negative square root of
    `NormSq(v)`, so the test holds exactly when the radius is non-negative and
    the squared norm is at most its square.
   */
  predicate WithinRadius(v: Vector3D, radius: real) {
    0.0 <= radius && NormSq(v) <= radius * radius
  }

  /** `np.abs` on one coordinate. */
  function Abs(a: real): real {
    if a < 0.0 then -a else a
  }
}

=== FILE: homogeneous.dfy ===
/**
  `_to_homogeneous` and `_from_homogeneous` (utils.py) on a single array:
  a point carries a trailing weight 1, a vector a trailing 0.
 */
module Homogeneous {
  import opened Outcomes
  import opened Geometry

  /**
    `np.isclose(a, 0)` holds exactly when `|a| <= atol + rtol * |0|`, that is
    `|a| <= atol`; numpy's default `atol` is 1e-8.
   */
  const Atol: real := 0.00000001

  /** The homogeneous weight: 1 for a point, 0 for a vector. */
  function Weight(isPoint: bool): real {
    if isPoint then 1.0 else 0.0
  }

  /**
    `_to_homogeneous(x, is_point)`. The weight is built as `ones_like(x[..., -1:])`,
    which is empty when `x` is, so an empty array comes back unchanged.
   */
  function ToHomogeneous(x: seq<real>, isPoint: bool := true): (h: seq<real>)
    ensures |x| > 0 ==> |h| == |x| + 1 && h[..|x|] == x && h[|x|] == Weight(isPoint)
    ensures |x| == 0 ==> h == []
  {
    if |x| == 0 then [] else x + [Weight(isPoint)]
  }

  /**
    `_from_homogeneous(h, is_point)`. A point is divided through by its last
    entry, which is then dropped; numpy does not raise on a zero weight but
    yields infinities or NaNs, reported here as `NonFiniteCoordinates` (with
    one entry the NaN is itself dropped). A vector must have a last entry
    close to 0 (the assertion) and loses it; an empty vector fails on `h[-1]`.
   */
  function FromHomogeneous(h: seq<real>, isPoint: bool := true): (r: Result<seq<real>>)
    ensures isPoint ==> (r.Err? <==> |h| >= 2 && h[|h| - 1] == 0.0)
    ensures isPoint && r.Err? ==> r.error == NonFiniteCoordinates
    ensures isPoint && r.Ok? ==>
      && |r.value| == (if |h| == 0 then 0 else |h| - 1)
      && forall i :: 0 <= i < |r.value| ==> r.value[i] * h[|h| - 1] == h[i]
    ensures !isPoint ==> (r.Ok? <==> |h| > 0 && Abs(h[|h| - 1]) <= Atol)
    ensures !isPoint && r.Ok? ==> h == r.value + [h[|h| - 1]]
    ensures !isPoint && |h| == 0 ==> r == Err(IndexOutOfRange)
    ensures !isPoint && |h| > 0 && r.Err? ==> r.error == NotHomogeneousVector
  {
    if isPoint then
      if |h| <= 1 then Ok([])
      else
        var w := h[|h| - 1];
        if w == 0.0 then Err(NonFiniteCoordinates)
        else Ok(seq(|h| - 1, i requires 0 <= i < |h| - 1 => h[i] / w))
    else if |h| == 0 then
      Err(IndexOutOfRange)
    else if Abs(h[|h| - 1]) <= Atol then
      Ok(h[..|h| - 1])
    else
      Err(NotHomogeneousVector)
  }

  /** Dropping the weight undoes appending it, for points and for non-empty vectors. */
  lemma FromToHomogeneous(x: seq<real>, isPoint: bool)
    requires isPoint || |x| > 0
    ensures FromHomogeneous(ToHomogeneous(x, isPoint), isPoint) == Ok(x)
  {
    var h := ToHomogeneous(x, isPoint);
    var r := FromHomogeneous(h, isPoint);
    if |x| > 0 {
      assert r.Ok?;
      assert |r.value| == |x|;
      forall i | 0 <= i < |x|
        ensures r.value[i] == x[i]
      {
        if isPoint {
          assert r.value[i] * 1.0 == h[i];
        } else {
          assert h == r.value + [0.0];
          assert h[i] == r.value[i];
        }
      }
      assert r.value == x;
    }
  }

  /** The empty vector is the one input whose round trip fails: `h[-1]` raises. */
  lemma EmptyVectorRoundTrip()
    ensures FromHomogeneous(ToHomogeneous([], false), false) == Err(IndexOutOfRange)
  {
  }

  /** Appending the weight again restores a homogeneous array already in normal form. */
  lemma ToFromHomogeneous(h: seq<real>, isPoint: bool)
    requires |h| >= 2 && h[|h| - 1] == Weight(isPoint)
    ensures FromHomogeneous(h, isPoint).Ok?
    ensures ToHomogeneous(FromHomogeneous(h, isPoint).value, isPoint) == h
  {
  }

  function Scale(c: real, h: seq<real>): (s: seq<real>)
    ensures |s| == |h| && forall i :: 0 <= i < |h| ==> s[i] == c * h[i]
  {
    seq(|h|, i requires 0 <= i < |h| => c * h[i])
  }

  /**
    Homogeneous points are projective: multiplying every entry, weight
    included, by a non-zero factor names the same point.
   */
  lemma ScaledPointIsSamePoint(h: seq<real>, c: real)
    requires c != 0.0
    ensures FromHomogeneous(Scale(c, h), true) == FromHomogeneous(h, true)
  {
    var s := Scale(c, h);
    if |h| >= 2 && h[|h| - 1] != 0.0 {
      var w := h[|h| - 1];
      var r, q := FromHomogeneous(s, true), FromHomogeneous(h, true);
      assert s[|s| - 1] == c * w != 0.0;
      assert r.Ok? && q.Ok?;
      forall i | 0 <= i < |h| - 1
        ensures r.value[i] == q.value[i]
      {
        assert r.value[i] * (c * w) == c * h[i];
        assert q.value[i] * w == h[i];
        assert c * (r.value[i] * w) == c * (q.value[i] * w);
      }
      assert r.value == q.value;
    }
  }
}

=== FILE: json.dfy ===
/**
  `jsonable` (utils.py): the recursive conversion of a nested value into
  plain strings, numbers, lists, tuples and dicts. `Path.resolve()` depends
  on the file system and is the parameter `resolve`. The result is not
  always something `json.dump` accepts: complex numbers pass through, and so
  do tuple keys; `Dumpable` says what `json.dump` does accept.
 */
module Json {
  import opened Outcomes
  import opened Values

  /**
    The values `jsonable` produces: strings, numbers, and lists, tuples and
    dicts of them, where a dict's keys are hashable and distinct. No `None`,
    path, array or foreign object is left; complex numbers and tuple keys
    may be.
   */
  predicate JsonReady(v: Value) {
    match v
    case List(xs) => forall i :: 0 <= i < |xs| ==> JsonReady(xs[i])
    case Tuple(xs) => forall i :: 0 <= i < |xs| ==> JsonReady(xs[i])
    case Dict(es) =>
      && DistinctKeys(es)
      && forall i :: 0 <= i < |es| ==>
           Hashable(es[i].key) && JsonReady(es[i].key) && JsonReady(es[i].val)
    case Null => false
    case Path(_) => false
    case NdArray(_) => false
    case ArrayLike(_) => false
    case Opaque(_) => false
    case _ => true
  }

  /**
    What `json.dump` serializes without raising: `None`, bools, ints, floats,
    strings, lists and tuples of such values, and dicts whose keys are
    strings, numbers, bools or `None` and whose values are such values.
   */
  predicate Dumpable(v: Value) {
    match v
    case List(xs) => forall i :: 0 <= i < |xs| ==> Dumpable(xs[i])
    case Tuple(xs) => forall i :: 0 <= i < |xs| ==> Dumpable(xs[i])
    case Dict(es) => forall i :: 0 <= i < |es| ==> DumpableKey(es[i].key) && Dumpable(es[i].val)
    case Complex(_, _) => false
    case Path(_) => false
    case NdArray(_) => false
    case ArrayLike(_) => false
    case Opaque(_) => false
    case _ => true
  }

  /** The key types `json.dump` writes: strings, numbers, bools and `None`. */
  predicate DumpableKey(k: Value) {
    k.Str? || IsNumber(k) || k.Null?
  }

  /** Whether an object of a type `jsonable` does not know occurs anywhere, keys included. */
  predicate HasUnknown(v: Value) {
    match v
    case Opaque(_) => true
    case List(xs) => exists i :: 0 <= i < |xs| && HasUnknown(xs[i])
    case Tuple(xs) => exists i :: 0 <= i < |xs| && HasUnknown(xs[i])
    case Dict(es) => exists i :: 0 <= i < |es| && (HasUnknown(es[i].key) || HasUnknown(es[i].val))
    case _ => false
  }

  /**
    Whether what `jsonable` makes of `k` can be hashed, so serve as a key of
    the rebuilt dict: lists, dicts and arrays (which become lists) cannot,
    a tuple can when each of its items can, and everything else can.
   */
  predicate HashableAfter(k: Value) {
    match k
    case List(_) => false
    case Dict(_) => false
    case NdArray(_) => false
    case ArrayLike(_) => false
    case Tuple(xs) => forall i :: 0 <= i < |xs| ==> HashableAfter(xs[i])
    case _ => true
  }

  /**
    Whether every dict anywhere in `v`, keys included, has keys that stay
    hashable once converted: the one condition besides an unknown type under
    which `jsonable` raises.
   */
  predicate KeysSafe(v: Value) {
    match v
    case List(xs) => forall i :: 0 <= i < |xs| ==> KeysSafe(xs[i])
    case Tuple(xs) => forall i :: 0 <= i < |xs| ==> KeysSafe(xs[i])
    case Dict(es) =>
      forall i :: 0 <= i < |es| ==> HashableAfter(es[i].key) && KeysSafe(es[i].key) && KeysSafe(es[i].val)
    case _ => true
  }

  /** A tuple hashes when each of its items does. */
  lemma HashableItemsAll(xs: seq<Value>)
    ensures HashableItems(xs) <==> forall i :: 0 <= i < |xs| ==> Hashable(xs[i])
  {
    if |xs| > 0 {
      HashableItemsAll(xs[1..]);
      assert forall i :: 1 <= i < |xs| ==> xs[i] == xs[1..][i - 1];
    }
  }

  /** `.tolist()` of a one-dimensional float array. */
  function FloatList(data: seq<real>): (r: Value)
    ensures r.List? && |r.items| == |data|
    ensures forall i :: 0 <= i < |data| ==> r.items[i] == Float(data[i])
  {
    List(seq(|data|, i requires 0 <= i < |data| => Float(data[i])))
  }

  /** The keys of a dict, as a set. */
  function KeySet(es: seq<Entry>): set<Value> {
    set i | 0 <= i < |es| :: es[i].key
  }

  lemma KeySetCons(e: Entry, es: seq<Entry>)
    ensures KeySet([e] + es) == {e.key} + KeySet(es)
  {
    var s := [e] + es;
    forall x | x in KeySet(s)
      ensures x in {e.key} + KeySet(es)
    {
      var i :| 0 <= i < |s| && s[i].key == x;
      if i > 0 {
        assert es[i - 1].key == x;
      }
    }
    forall x | x in KeySet(es)
      ensures x in KeySet(s)
    {
      var i :| 0 <= i < |es| && es[i].key == x;
      assert s[i + 1].key == x;
    }
    assert s[0].key == e.key;
  }

  /**
    `d[k] = v` on a dict held as its entries in insertion order: an existing
    key keeps its place and takes the new value, a new key goes last.
   */
  function Assign(es: seq<Entry>, k: Value, v: Value): (r: seq<Entry>)
    requires DistinctKeys(es)
    ensures DistinctKeys(r)
    ensures KeySet(r) == KeySet(es) + {k}
    ensures forall j :: 0 <= j < |r| ==> r[j] in es || r[j] == Entry(k, v)
    ensures Entry(k, v) in r
    ensures k in KeySet(es) ==>
      && |r| == |es|
      && forall j :: 0 <= j < |es| && es[j].key == k ==> r[j] == Entry(k, v)
    ensures k !in KeySet(es) ==> |r| == |es| + 1 && r[|es|] == Entry(k, v)
    ensures |es| <= |r| && forall j :: 0 <= j < |es| && es[j].key != k ==> r[j] == es[j]
  {
    if k in KeySet(es) then
      var r := seq(|es|, j requires 0 <= j < |es| => if es[j].key == k then Entry(k, v) else es[j]);
      assert forall j :: 0 <= j < |es| ==> r[j].key == es[j].key;
      assert KeySet(r) == KeySet(es);
      var i :| 0 <= i < |es| && es[i].key == k;
      assert r[i] == Entry(k, v);
      r
    else
      var r := es + [Entry(k, v)];
      assert forall j :: 0 <= j < |es| ==> r[j] == es[j];
      assert r[|es|].key == k;
      assert KeySet(r) == KeySet(es) + {k};
      r
  }

  /**
    `dict(pairs)` continuing from the entries `acc`: the pairs are assigned in
    order, and the first unhashable key raises.
   */
  function BuildDict(acc: seq<Entry>, pairs: seq<Entry>): (r: Result<seq<Entry>>)
    requires DistinctKeys(acc)
    ensures r.Ok? <==> forall i :: 0 <= i < |pairs| ==> Hashable(pairs[i].key)
    ensures r.Err? ==> r.error == UnhashableKey
    ensures r.Ok? ==> DistinctKeys(r.value)
    ensures r.Ok? ==> KeySet(r.value) == KeySet(acc) + KeySet(pairs)
    ensures r.Ok? ==> forall j :: 0 <= j < |r.value| ==> r.value[j] in acc || r.value[j] in pairs
    ensures r.Ok? ==> forall j :: 0 <= j < |acc| && acc[j].key !in KeySet(pairs) ==> acc[j] in r.value
    ensures r.Ok? ==> forall i :: 0 <= i < |pairs| && LastForKey(pairs, i) ==> pairs[i] in r.value
    decreases |pairs|
  {
    if |pairs| == 0 then Ok(acc)
    else if !Hashable(pairs[0].key) then Err(UnhashableKey)
    else
      var p := pairs[0];
      var rest := pairs[1..];
      var acc' := Assign(acc, p.key, p.val);
      KeySetCons(p, rest);
      assert [p] + rest == pairs;
      assert forall i :: 1 <= i < |pairs| ==> pairs[i] == rest[i - 1];
      var r := BuildDict(acc', rest);
      if r.Ok? then
        AssignThenBuild(acc, pairs, r.value);
        r
      else
        r
  }

  /**
    The step behind `BuildDict`'s last two promises: if building from the
    pairs after the first keeps what it should, so does assigning the first
    pair and then building.
   */
  lemma AssignThenBuild(acc: seq<Entry>, pairs: seq<Entry>, out: seq<Entry>)
    requires DistinctKeys(acc) && |pairs| > 0
    requires
      var acc' := Assign(acc, pairs[0].key, pairs[0].val);
      forall j :: 0 <= j < |acc'| && acc'[j].key !in KeySet(pairs[1..]) ==> acc'[j] in out
    requires forall i :: 0 <= i < |pairs[1..]| && LastForKey(pairs[1..], i) ==> pairs[1..][i] in out
    ensures forall j :: 0 <= j < |acc| && acc[j].key !in KeySet(pairs) ==> acc[j] in out
    ensures forall i :: 0 <= i < |pairs| && LastForKey(pairs, i) ==> pairs[i] in out
  {
    var p, rest := pairs[0], pairs[1..];
    var acc' := Assign(acc, p.key, p.val);
    assert p.key in KeySet(pairs) by {
      assert pairs[0].key == p.key;
    }
    assert KeySet(rest) <= KeySet(pairs) by {
      KeySetCons(p, rest);
      assert [p] + rest == pairs;
    }
    forall j | 0 <= j < |acc| && acc[j].key !in KeySet(pairs)
      ensures acc[j] in out
    {
      assert acc'[j] == acc[j];
    }
    LastForKeyTail(pairs);
    if LastForKey(pairs, 0) {
      LastKeyIsFresh(pairs);
      var j :| 0 <= j < |acc'| && acc'[j] == Entry(p.key, p.val);
      assert acc'[j].key !in KeySet(rest);
    }
    forall i | 1 <= i < |pairs| && LastForKey(pairs, i)
      ensures pairs[i] in out
    {
      assert pairs[i] == rest[i - 1];
    }
  }

  /** Whether no later pair in `pairs` has the key of pair `i`: the one whose value `dict` keeps. */
  predicate LastForKey(pairs: seq<Entry>, i: int)
    requires 0 <= i < |pairs|
  {
    forall j :: i < j < |pairs| ==> pairs[j].key != pairs[i].key
  }

  lemma LastForKeyTail(pairs: seq<Entry>)
    requires |pairs| > 0
    ensures forall i :: 1 <= i < |pairs| ==> (LastForKey(pairs, i) <==> LastForKey(pairs[1..], i - 1))
  {
  }

  lemma LastKeyIsFresh(pairs: seq<Entry>)
    requires |pairs| > 0 && LastForKey(pairs, 0)
    ensures pairs[0].key !in KeySet(pairs[1..])
  {
    forall j | 0 <= j < |pairs[1..]|
      ensures pairs[1..][j].key != pairs[0].key
    {
      assert pairs[1..][j] == pairs[j + 1];
    }
  }

  /**
    `jsonable(obj)`. `None` becomes the string "null"; strings and numbers
    (bools and complex numbers included) are returned as they are; a path
    becomes its resolved string; lists and tuples keep their kind and are
    converted item by item; a dict is rebuilt from its converted key-value
    pairs; arrays and array-likes become lists of floats; anything else
    raises. The first failure in left-to-right order raises.
   */
  function Jsonable(v: Value, resolve: string -> string): (r: Result<Value>)
    ensures r.Ok? ==> JsonReady(r.value)
    ensures r.Ok? && IsSequence(v) ==>
      && r.value.List? == v.List?
      && r.value.Tuple? == v.Tuple?
      && |r.value.items| == |v.items|
    ensures r.Ok? && v.Dict? ==> r.value.Dict? && |r.value.entries| <= |v.entries|
    ensures v.Null? ==> r == Ok(Str("null"))
    ensures v.Str? || IsNumber(v) || v.Complex? ==> r == Ok(v)
    ensures v.Opaque? ==> r == Err(UnknownJsonType)
    ensures HasUnknown(v) ==> r.Err?
    ensures r.Ok? <==> !HasUnknown(v) && KeysSafe(v)
    ensures r.Ok? ==> (Hashable(r.value) <==> HashableAfter(v))
    ensures r.Err? && !HasUnknown(v) ==> r.error == UnhashableKey
    ensures r.Err? ==> r.error == UnknownJsonType || r.error == UnhashableKey
    ensures v.Path? ==> r == Ok(Str(resolve(v.path)))
    ensures v.NdArray? || v.ArrayLike? ==> r == Ok(FloatList(v.data))
    ensures r.Ok? && IsSequence(v) ==>
      forall i :: 0 <= i < |v.items| ==> Jsonable(v.items[i], resolve) == Ok(r.value.items[i])
    ensures v.Dict? && JsonablePairs(v.entries, resolve).Ok? ==>
      r == DictOfPairs(JsonablePairs(v.entries, resolve).value)
    decreases v, 1
  {
    if IsSequence(v) then JsonableSequence(v, resolve)
    else if v.Dict? then JsonableDict(v, resolve)
    else JsonableLeaf(v, resolve)
  }

  /** A value that is neither a list, a tuple nor a dict: nothing inside it to convert. */
  function JsonableLeaf(v: Value, resolve: string -> string): (r: Result<Value>)
    requires !IsSequence(v) && !v.Dict?
    ensures r.Ok? ==> JsonReady(r.value) && (Hashable(r.value) <==> HashableAfter(v))
    ensures r.Ok? <==> !v.Opaque?
    ensures r.Err? ==> r.error == UnknownJsonType
    ensures v.Null? ==> r == Ok(Str("null"))
    ensures v.Str? || IsNumber(v) || v.Complex? ==> r == Ok(v)
    ensures v.Path? ==> r == Ok(Str(resolve(v.path)))
    ensures v.NdArray? || v.ArrayLike? ==> r == Ok(FloatList(v.data))
  {
    match v
    case Null => Ok(Str("null"))
    case Path(p) => Ok(Str(resolve(p)))
    case NdArray(data) => Ok(FloatList(data))
    case ArrayLike(data) => Ok(FloatList(data))
    case Opaque(_) => Err(UnknownJsonType)
    case _ => Ok(v)
  }

  /** A list or tuple converted item by item, keeping its kind. */
  function JsonableSequence(v: Value, resolve: string -> string): (r: Result<Value>)
    requires IsSequence(v)
    ensures r.Ok? ==> JsonReady(r.value)
    ensures r.Ok? ==>
      && r.value.List? == v.List?
      && r.value.Tuple? == v.Tuple?
      && |r.value.items| == |v.items|
      && forall i :: 0 <= i < |v.items| ==> Jsonable(v.items[i], resolve) == Ok(r.value.items[i])
    ensures HasUnknown(v) ==> r.Err?
    ensures r.Ok? <==> !HasUnknown(v) && KeysSafe(v)
    ensures r.Ok? ==> (Hashable(r.value) <==> HashableAfter(v))
    ensures r.Err? && !HasUnknown(v) ==> r.error == UnhashableKey
    ensures r.Err? ==> r.error == UnknownJsonType || r.error == UnhashableKey
    decreases v, 0
  {
    var ys :- JsonableItems(v.items, resolve);
    HashableItemsAll(ys);
    Ok(if v.List? then List(ys) else Tuple(ys))
  }

  /** A dict rebuilt from its converted key-value pairs. */
  function JsonableDict(v: Value, resolve: string -> string): (r: Result<Value>)
    requires v.Dict?
    ensures r.Ok? ==> r.value.Dict? && JsonReady(r.value) && |r.value.entries| <= |v.entries|
    ensures HasUnknown(v) ==> r.Err?
    ensures r.Ok? <==> !HasUnknown(v) && KeysSafe(v)
    ensures r.Err? && !HasUnknown(v) ==> r.error == UnhashableKey
    ensures r.Err? ==> r.error == UnknownJsonType || r.error == UnhashableKey
    ensures JsonablePairs(v.entries, resolve).Ok? ==> r == DictOfPairs(JsonablePairs(v.entries, resolve).value)
    decreases v, 0
  {
    var pairs := JsonablePairs(v.entries, resolve);
    DictSafety(v);
    if pairs.Err? then
      Err(pairs.error)
    else
      assert !HasUnknown(v);
      DictOfPairs(pairs.value)
  }

  /** A dict is safe to convert when each entry is, and each key stays hashable once converted. */
  lemma DictSafety(v: Value)
    requires v.Dict?
    ensures !HasUnknown(v) && KeysSafe(v) <==>
      forall i :: 0 <= i < |v.entries| ==> PairSafe(v.entries[i]) && HashableAfter(v.entries[i].key)
  {
  }

  /** `dict(pairs)` of converted pairs, as a value. */
  function DictOfPairs(pairs: seq<Entry>): (r: Result<Value>)
    requires forall i :: 0 <= i < |pairs| ==> JsonReady(pairs[i].key) && JsonReady(pairs[i].val)
    ensures r.Ok? ==> r.value.Dict? && JsonReady(r.value) && |r.value.entries| <= |pairs|
    ensures r.Ok? == BuildDict([], pairs).Ok?
    ensures r.Ok? ==> r.value.entries == BuildDict([], pairs).value
    ensures r.Err? ==> r.error == UnhashableKey
  {
    var es :- BuildDict([], pairs);
    DictFromReadyPairs(pairs, es);
    Ok(Dict(es))
  }

  /** Every entry of a converted dict is the conversion of an entry of the original. */
  lemma DictEntriesConverted(v: Value, resolve: string -> string)
    requires v.Dict?
    ensures Jsonable(v, resolve).Ok? ==>
      forall j :: 0 <= j < |Jsonable(v, resolve).value.entries| ==>
        ConvertedFrom(Jsonable(v, resolve).value.entries[j], v.entries, resolve)
  {
    if Jsonable(v, resolve).Err? {
      return;
    }
    assert Jsonable(v, resolve) == JsonableDict(v, resolve);
    assert JsonablePairs(v.entries, resolve).Ok?;
    var pairs := JsonablePairs(v.entries, resolve).value;
    var out := BuildDict([], pairs).value;
    assert Jsonable(v, resolve) == JsonableDict(v, resolve) == DictOfPairs(pairs);
    ConvertedEntries(v.entries, pairs, out, resolve);
  }

  /** Entries drawn from the converted pairs are each the conversion of some original entry. */
  lemma ConvertedEntries(es: seq<Entry>, pairs: seq<Entry>, out: seq<Entry>, resolve: string -> string)
    requires |pairs| == |es|
    requires forall i :: 0 <= i < |es| ==> JsonablePair(es[i], resolve) == Ok(pairs[i])
    requires forall j :: 0 <= j < |out| ==> out[j] in pairs
    ensures forall j :: 0 <= j < |out| ==> ConvertedFrom(out[j], es, resolve)
  {
    forall j | 0 <= j < |out|
      ensures ConvertedFrom(out[j], es, resolve)
    {
      var i :| 0 <= i < |pairs| && pairs[i] == out[j];
      assert JsonablePair(es[i], resolve) == Ok(out[j]);
    }
  }

  /** Whether `e` is what `jsonable` makes of one of the entries `es`. */
  predicate ConvertedFrom(e: Entry, es: seq<Entry>, resolve: string -> string) {
    exists i :: 0 <= i < |es| && JsonablePair(es[i], resolve) == Ok(e)
  }

  /** Every item converted in order; the first item that fails raises. */
  function JsonableItems(xs: seq<Value>, resolve: string -> string): (r: Result<seq<Value>>)
    ensures r.Ok? ==> |r.value| == |xs| && forall i :: 0 <= i < |xs| ==> JsonReady(r.value[i])
    ensures r.Ok? ==> forall i :: 0 <= i < |xs| ==> Jsonable(xs[i], resolve) == Ok(r.value[i])
    ensures (exists i :: 0 <= i < |xs| && HasUnknown(xs[i])) ==> r.Err?
    ensures r.Ok? <==> forall i :: 0 <= i < |xs| ==> !HasUnknown(xs[i]) && KeysSafe(xs[i])
    ensures r.Ok? ==> forall i :: 0 <= i < |xs| ==> (Hashable(r.value[i]) <==> HashableAfter(xs[i]))
    ensures r.Err? && (forall i :: 0 <= i < |xs| ==> !HasUnknown(xs[i])) ==> r.error == UnhashableKey
    ensures r.Err? ==> r.error == UnknownJsonType || r.error == UnhashableKey
    decreases xs, 0
  {
    if |xs| == 0 then Ok([])
    else
      assert forall i :: 1 <= i < |xs| ==> xs[i] == xs[1..][i - 1];
      var y :- Jsonable(xs[0], resolve);
      var ys :- JsonableItems(xs[1..], resolve);
      Ok([y] + ys)
  }

  /** The key-value pairs of a dict, each key and each value converted, in order; the first failure raises. */
  function JsonablePairs(es: seq<Entry>, resolve: string -> string): (r: Result<seq<Entry>>)
    ensures r.Ok? ==>
      && |r.value| == |es|
      && forall i :: 0 <= i < |es| ==> JsonReady(r.value[i].key) && JsonReady(r.value[i].val)
    ensures r.Ok? ==> forall i :: 0 <= i < |es| ==> JsonablePair(es[i], resolve) == Ok(r.value[i])
    ensures (exists i :: 0 <= i < |es| && (HasUnknown(es[i].key) || HasUnknown(es[i].val))) ==> r.Err?
    ensures r.Ok? <==> forall i :: 0 <= i < |es| ==> PairSafe(es[i])
    ensures r.Ok? ==> forall i :: 0 <= i < |es| ==> (Hashable(r.value[i].key) <==> HashableAfter(es[i].key))
    ensures r.Err? && (forall i :: 0 <= i < |es| ==> !HasUnknown(es[i].key) && !HasUnknown(es[i].val)) ==>
      r.error == UnhashableKey
    ensures r.Err? ==> r.error == UnknownJsonType || r.error == UnhashableKey
    decreases es, 0
  {
    if |es| == 0 then Ok([])
    else
      assert forall i :: 1 <= i < |es| ==> es[i] == es[1..][i - 1];
      var e :- JsonablePair(es[0], resolve);
      var rest :- JsonablePairs(es[1..], resolve);
      Ok([e] + rest)
  }

  /** Whether neither the key nor the value of `e` holds an unknown type or an unsafe key. */
  predicate PairSafe(e: Entry) {
    !HasUnknown(e.key) && !HasUnknown(e.val) && KeysSafe(e.key) && KeysSafe(e.val)
  }

  function JsonablePair(e: Entry, resolve: string -> string): (r: Result<Entry>)
    ensures r.Ok? ==> JsonReady(r.value.key) && JsonReady(r.value.val)
    ensures r.Ok? ==> Jsonable(e.key, resolve) == Ok(r.value.key) && Jsonable(e.val, resolve) == Ok(r.value.val)
    ensures HasUnknown(e.key) || HasUnknown(e.val) ==> r.Err?
    ensures r.Ok? <==> PairSafe(e)
    ensures r.Ok? ==> (Hashable(r.value.key) <==> HashableAfter(e.key))
    ensures r.Err? && !HasUnknown(e.key) && !HasUnknown(e.val) ==> r.error == UnhashableKey
    ensures r.Err? ==> r.error == UnknownJsonType || r.error == UnhashableKey
    decreases e, 0
  {
    var k :- Jsonable(e.key, resolve);
    var v :- Jsonable(e.val, resolve);
    Ok(Entry(k, v))
  }

  /** A dict built from converted pairs is itself ready, and no larger than the pairs. */
  lemma DictFromReadyPairs(pairs: seq<Entry>, es: seq<Entry>)
    requires forall i :: 0 <= i < |pairs| ==> JsonReady(pairs[i].key) && JsonReady(pairs[i].val)
    ensures BuildDict([], pairs) == Ok(es) ==> JsonReady(Dict(es)) && |es| <= |pairs|
  {
    if BuildDict([], pairs) != Ok(es) {
      return;
    }
    forall j | 0 <= j < |es|
      ensures es[j] in pairs
      ensures Hashable(es[j].key) && JsonReady(es[j].key) && JsonReady(es[j].val)
    {
      assert es[j] in [] || es[j] in pairs;
      var i :| 0 <= i < |pairs| && pairs[i] == es[j];
    }
    DistinctEntriesFitIn(es, pairs);
  }

  /** Entries with distinct keys, all drawn from `pairs`, are at most as many as `pairs`. */
  lemma {:induction false} DistinctEntriesFitIn(es: seq<Entry>, pairs: seq<Entry>)
    requires DistinctKeys(es)
    requires forall j :: 0 <= j < |es| ==> es[j] in pairs
    ensures |es| <= |pairs|
  {
    var s := set j | 0 <= j < |es| :: es[j];
    var t := set i | 0 <= i < |pairs| :: pairs[i];
    assert s <= t;
    SetOfDistinct(es);
    SetOfSeqSize(pairs);
    assert |s| <= |t| by {
      SubsetSize(s, t);
    }
  }

  lemma {:induction false} SetOfDistinct(es: seq<Entry>)
    requires DistinctKeys(es)
    ensures |set j | 0 <= j < |es| :: es[j]| == |es|
    decreases |es|
  {
    if |es| > 0 {
      var front := es[..|es| - 1];
      var last := es[|es| - 1];
      assert DistinctKeys(front);
      SetOfDistinct(front);
      var sf := set j | 0 <= j < |front| :: front[j];
      var s := set j | 0 <= j < |es| :: es[j];
      assert last !in sf;
      assert s == sf + {last};
    }
  }

  lemma {:induction false} SetOfSeqSize(xs: seq<Entry>)
    ensures |set i | 0 <= i < |xs| :: xs[i]| <= |xs|
    decreases |xs|
  {
    if |xs| > 0 {
      var front := xs[..|xs| - 1];
      SetOfSeqSize(front);
      var sf := set i | 0 <= i < |front| :: front[i];
      var s := set i | 0 <= i < |xs| :: xs[i];
      assert s == sf + {xs[|xs| - 1]};
    }
  }

  lemma SubsetSize(s: set<Entry>, t: set<Entry>)
    requires s <= t
    ensures |s| <= |t|
  {
    assert t == s + (t - s);
  }

  // ---------------------------------------------------------------------
  // Idempotence

  /** Assigning keys not yet present only appends. */
  lemma {:induction false} BuildDictFresh(acc: seq<Entry>, pairs: seq<Entry>)
    requires DistinctKeys(acc) && DistinctKeys(acc + pairs)
    requires forall i :: 0 <= i < |pairs| ==> Hashable(pairs[i].key)
    ensures BuildDict(acc, pairs) == Ok(acc + pairs)
    decreases |pairs|
  {
    if |pairs| > 0 {
      var p := pairs[0];
      assert forall i :: 0 <= i < |acc| ==> acc[i].key != p.key by {
        assert forall i :: 0 <= i < |acc| ==> acc[i] == (acc + pairs)[i];
        assert p == (acc + pairs)[|acc|];
      }
      assert p.key !in KeySet(acc);
      assert Assign(acc, p.key, p.val) == acc + [p];
      assert (acc + [p]) + pairs[1..] == acc + pairs;
      assert DistinctKeys(acc + [p]) by {
        assert forall i :: 0 <= i <= |acc| ==> (acc + [p])[i] == (acc + pairs)[i];
      }
      assert forall i :: 1 <= i < |pairs| ==> pairs[i] == pairs[1..][i - 1];
      assert BuildDict(acc, pairs) == BuildDict(acc + [p], pairs[1..]);
      BuildDictFresh(acc + [p], pairs[1..]);
    } else {
      assert acc + pairs == acc;
    }
  }

  /** `jsonable` returns every value it produces unchanged. */
  lemma {:induction false} JsonReadyIsFixed(w: Value, resolve: string -> string)
    requires JsonReady(w)
    ensures Jsonable(w, resolve) == Ok(w)
    decreases w, 1
  {
    match w
    case List(xs) =>
      ReadyItemsFixed(xs, resolve);
    case Tuple(xs) =>
      ReadyItemsFixed(xs, resolve);
    case Dict(es) =>
      ReadyPairsFixed(es, resolve);
      assert [] + es == es;
      BuildDictFresh([], es);
    case _ =>
  }

  lemma {:induction false} ReadyItemsFixed(xs: seq<Value>, resolve: string -> string)
    requires forall i :: 0 <= i < |xs| ==> JsonReady(xs[i])
    ensures JsonableItems(xs, resolve) == Ok(xs)
    decreases xs, 0
  {
    if |xs| > 0 {
      JsonReadyIsFixed(xs[0], resolve);
      assert forall i :: 1 <= i < |xs| ==> xs[1..][i - 1] == xs[i];
      ReadyItemsFixed(xs[1..], resolve);
      assert [xs[0]] + xs[1..] == xs;
    }
  }

  lemma {:induction false} ReadyPairsFixed(es: seq<Entry>, resolve: string -> string)
    requires forall i :: 0 <= i < |es| ==> JsonReady(es[i].key) && JsonReady(es[i].val)
    ensures JsonablePairs(es, resolve) == Ok(es)
    decreases es, 0
  {
    if |es| > 0 {
      ReadyPairFixed(es[0], resolve);
      assert forall i :: 1 <= i < |es| ==> es[1..][i - 1] == es[i];
      ReadyPairsFixed(es[1..], resolve);
      assert [es[0]] + es[1..] == es;
    }
  }

  lemma {:induction false} ReadyPairFixed(e: Entry, resolve: string -> string)
    requires JsonReady(e.key) && JsonReady(e.val)
    ensures JsonablePair(e, resolve) == Ok(e)
    decreases e, 0
  {
    JsonReadyIsFixed(e.key, resolve);
    JsonReadyIsFixed(e.val, resolve);
  }

  /** `jsonable(jsonable(x)) == jsonable(x)` whenever the first call succeeds. */
  lemma JsonableIdempotent(v: Value, resolve: string -> string)
    ensures Jsonable(v, resolve).Ok? ==> Jsonable(Jsonable(v, resolve).value, resolve) == Jsonable(v, resolve)
  {
    if Jsonable(v, resolve).Ok? {
      JsonReadyIsFixed(Jsonable(v, resolve).value, resolve);
    }
  }

  /**
    Keys are converted too, so two keys can collide: `{None: 1, "null": 2}`
    becomes `{"null": 2}`, the later value in the earlier key's place.
   */
  lemma NullKeyCollision(resolve: string -> string)
    ensures Jsonable(Dict([Entry(Null, Int(1)), Entry(Str("null"), Int(2))]), resolve)
      == Ok(Dict([Entry(Str("null"), Int(2))]))
  {
    var es := [Entry(Null, Int(1)), Entry(Str("null"), Int(2))];
    var pairs := [Entry(Str("null"), Int(1)), Entry(Str("null"), Int(2))];
    CollidingPairs(es, pairs, resolve);
    CollidingBuild(pairs);
    DictThroughPairs(Dict(es), pairs, resolve);
  }

  /** A dict whose pairs convert converts to the dict those pairs build. */
  lemma DictThroughPairs(v: Value, pairs: seq<Entry>, resolve: string -> string)
    requires v.Dict? && JsonablePairs(v.entries, resolve) == Ok(pairs)
    ensures Jsonable(v, resolve) == DictOfPairs(pairs)
  {
  }

  lemma CollidingPairs(es: seq<Entry>, pairs: seq<Entry>, resolve: string -> string)
    requires es == [Entry(Null, Int(1)), Entry(Str("null"), Int(2))]
    requires pairs == [Entry(Str("null"), Int(1)), Entry(Str("null"), Int(2))]
    ensures JsonablePairs(es, resolve) == Ok(pairs)
  {
    var tail := es[1..];
    assert tail == [es[1]] && tail[1..] == [];
    assert JsonablePair(es[0], resolve) == Ok(pairs[0]);
    assert JsonablePair(tail[0], resolve) == Ok(pairs[1]);
    assert JsonablePairs(tail[1..], resolve) == Ok([]);
    assert [pairs[1]] + [] == [pairs[1]];
    assert JsonablePairs(tail, resolve) == Ok([pairs[1]]);
    assert [pairs[0]] + [pairs[1]] == pairs;
  }

  lemma CollidingBuild(pairs: seq<Entry>)
    requires pairs == [Entry(Str("null"), Int(1)), Entry(Str("null"), Int(2))]
    ensures BuildDict([], pairs) == Ok([Entry(Str("null"), Int(2))])
  {
    var d1 := Assign([], Str("null"), Int(1));
    assert Str("null") !in KeySet([]);
    assert d1 == [pairs[0]];
    var d2 := Assign(d1, Str("null"), Int(2));
    assert Str("null") in KeySet(d1) by {
      assert d1[0].key == Str("null");
    }
    assert d2 == [Entry(Str("null"), Int(2))];
    assert BuildDict([], pairs) == BuildDict(d1, pairs[1..]);
    assert pairs[1..][1..] == [];
    assert BuildDict(d1, pairs[1..]) == BuildDict(d2, []);
  }

  // ---------------------------------------------------------------------
  // What `json.dump` accepts

  /** A complex number passes through `jsonable`, and `json.dump` cannot write it. */
  lemma ComplexPassesThrough(re: real, im: real, resolve: string -> string)
    ensures Jsonable(Complex(re, im), resolve) == Ok(Complex(re, im))
    ensures !Dumpable(Complex(re, im))
  {
  }

  /** A tuple key passes through `jsonable`, and `json.dump` cannot write it. */
  lemma TupleKeyPassesThrough(resolve: string -> string)
    ensures
      var d := Dict([Entry(Tuple([Int(1), Int(2)]), Int(3))]);
      Jsonable(d, resolve) == Ok(d) && !Dumpable(d)
  {
    var key := Tuple([Int(1), Int(2)]);
    var d := Dict([Entry(key, Int(3))]);
    assert HashableItems([Int(2)]) by {
      assert [Int(2)][1..] == [];
    }
    assert Hashable(key);
    assert JsonReady(key) by {
      assert key.items[0] == Int(1) && key.items[1] == Int(2);
    }
    assert d.entries[0].key == key && d.entries[0].val == Int(3);
    assert JsonReady(d);
    JsonReadyIsFixed(d, resolve);
    assert !DumpableKey(d.entries[0].key);
  }

  /**
    `jsonable` as its purpose requires: the same conversion, but a result
    `json.dump` could not write is refused as not serializable instead of
    being handed on.
   */
  function JsonableForDump(v: Value, resolve: string -> string): (r: Result<Value>)
    ensures r.Ok? ==> JsonReady(r.value) && Dumpable(r.value)
    ensures r.Ok? ==> Jsonable(v, resolve) == r
    ensures Jsonable(v, resolve).Ok? && Dumpable(Jsonable(v, resolve).value) ==> r == Jsonable(v, resolve)
    ensures Jsonable(v, resolve).Err? ==> r == Jsonable(v, resolve)
  {
    var w :- Jsonable(v, resolve);
    if Dumpable(w) then Ok(w) else Err(NotSerializable)
  }

  /** A complex number is refused by the corrected conversion. */
  lemma ComplexRefused(re: real, im: real, resolve: string -> string)
    ensures JsonableForDump(Complex(re, im), resolve) == Err(NotSerializable)
  {
  }

  /** Whatever `json.dump` can write and `jsonable` produces comes back unchanged from the corrected conversion. */
  lemma DumpableIsFixed(w: Value, resolve: string -> string)
    requires JsonReady(w) && Dumpable(w)
    ensures JsonableForDump(w, resolve) == Ok(w)
  {
    JsonReadyIsFixed(w, resolve);
  }

  /** The corrected conversion is idempotent. */
  lemma JsonableForDumpIdempotent(v: Value, resolve: string -> string)
    requires JsonableForDump(v, resolve).Ok?
    ensures JsonableForDump(JsonableForDump(v, resolve).value, resolve) == JsonableForDump(v, resolve)
  {
    DumpableIsFixed(JsonableForDump(v, resolve).value, resolve);
  }
}

=== FILE: outcomes.dfy ===
/**
  Failure-carrying results for the modelled helpers. Every exception that the
  Python code raises is an `Error` constructor, so that a failing call is a
  value the contracts can talk about rather than an excluded input. Two
  constructors stand for outcomes that raise nothing in Python: a division by
  a zero weight, which numpy answers with infinities, and a generator that
  runs out, which a real one never does.
 */
module Outcomes {

  /** One constructor per raise site of the modelled code. */
  datatype Error =
    | CannotConvertString(text: string)   // ValueError raised by `_array`
    | NotAFloat(token: string)            // ValueError raised by `float(token)`
    | IndexOutOfRange                     // IndexError: indexing an empty tuple or array
    | NotHomogeneousVector                // AssertionError in `_from_homogeneous`
    | NonFiniteCoordinates                // no exception: numpy divides by a zero weight and warns
    | LengthMismatch(expected: int, actual: nat)  // AssertionError in `tuplify`
    | CannotConvertToRadians              // TypeError raised by `radians`
    | UnknownJsonType                     // ValueError raised by `jsonable`
    | UnhashableKey                       // TypeError raised by `dict(...)`
    | NegativeCount(n: int)               // numpy's "negative dimensions" ValueError
    | NegativeScale                       // numpy's "scale < 0" ValueError in `normal`
    | MissingRadius                       // TypeError negating a `None` radius in `uniform`
    | NotSerializable                     // TypeError raised by `json.dump`
    | DrawsExhausted                      // no exception: the supplied random draws ran out

  datatype Option<+T> = None | Some(value: T)

  /** `Ok(value)` or the exception the call raised; usable with `:-`. */
  datatype Result<+T> = Ok(value: T) | Err(error: Error) {

    predicate IsFailure() {
      Err?
    }

    function PropagateFailure<U>(): Result<U>
      requires Err?
    {
      Err(error)
    }

    function Extract(): T
      requires Ok?
    {
      value
    }
  }
}

=== FILE: sampling.dfy ===
/**
  The samplers of random.py: `spherical_uniform`, `clipped_spherical_uniform`,
  `normal` and `uniform`.

  Randomness and trigonometry are parameters. A sampler is given the
  sequence of candidates its generator yields (`draws`, consumed front to
  back), the rotation `F @` that carries the +z axis onto the requested
  direction (`toCenter`), and `np.arctan2` (`atan2`). A loop that would need
  more candidates than `draws` holds fails with `DrawsExhausted` where the
  Python loop would keep drawing.
 */
module Sampling {
  import opened Outcomes
  import opened Geometry
  import opened Accumulate

  /** A sampler's result: one sample when called with `n=None`, a list otherwise. */
  datatype Sampled<T> = One(sample: T) | Many(samples: seq<T>)

  /** The samples of a result, in order. */
  function Samples<T>(s: Sampled<T>): (xs: seq<T>)
    ensures s.One? ==> xs == [s.sample]
    ensures s.Many? ==> xs == s.samples
  {
    match s
    case One(x) => [x]
    case Many(xs) => xs
  }

  /** The result has the shape that `n` asks for. */
  predicate Shaped<T>(s: Sampled<T>, n: Option<int>) {
    n.None? <==> s.One?
  }

  /** The count `n_` the samplers work towards: one when `n` is `None`, `n` itself otherwise. */
  function Requested(n: Option<int>): int {
    if n.None? then 1 else n.value
  }

  /** How many samples the sampling loops collect before they stop: the requested count, or none when it is not positive. */
  function Wanted(n: Option<int>): nat {
    if Requested(n) < 0 then 0 else Requested(n)
  }

  /** Each raw draw carried by the rotation onto the center direction, in order. */
  function Rotated(raw: seq<Vector3D>, toCenter: Vector3D -> Vector3D): (ds: seq<Vector3D>)
    ensures |ds| == |raw|
    ensures forall i :: 0 <= i < |raw| ==> ds[i] == toCenter(raw[i])
  {
    seq(|raw|, i requires 0 <= i < |raw| => toCenter(raw[i]))
  }

  /** The center moved by each offset, in order. */
  function Offsets(center: Point3D, vs: seq<Vector3D>): (ps: seq<Point3D>)
    ensures |ps| == |vs|
    ensures forall i :: 0 <= i < |vs| ==> ps[i] == Plus(center, vs[i])
  {
    seq(|vs|, i requires 0 <= i < |vs| => Plus(center, vs[i]))
  }

  // ---------------------------------------------------------------------------
  // spherical_uniform

  /**
    `spherical_uniform(center, d_phi, n)`, given the `count` unit vectors
    `raw` that `_sample_spherical(d_phi, count)` drew around +z. A negative
    `n` is refused by the generator's size check; otherwise every raw draw is
    rotated onto the center direction, and `n=None` returns the only one.
   */
  function SphericalUniform(n: Option<int>, raw: seq<Vector3D>, toCenter: Vector3D -> Vector3D)
    : (r: Result<Sampled<Vector3D>>)
    requires Requested(n) >= 0 ==> |raw| == Requested(n)
    ensures r.Err? <==> Requested(n) < 0
    ensures r.Err? ==> r.error == NegativeCount(Requested(n))
    ensures r.Ok? ==>
      && Shaped(r.value, n)
      && |Samples(r.value)| == |raw|
      && forall i :: 0 <= i < |raw| ==> Samples(r.value)[i] == toCenter(raw[i])
  {
    if Requested(n) < 0 then Err(NegativeCount(Requested(n)))
    else if n.None? then Ok(One(toCenter(raw[0])))
    else Ok(Many(Rotated(raw, toCenter)))
  }

  /** Asking for no count returns what a batch of one would hold. */
  lemma SingleIsBatchOfOne(raw: seq<Vector3D>, toCenter: Vector3D -> Vector3D)
    requires |raw| == 1
    ensures SphericalUniform(None, raw, toCenter).Ok?
    ensures SphericalUniform(Some(1), raw, toCenter).Ok?
    ensures SphericalUniform(None, raw, toCenter).value
      == One(SphericalUniform(Some(1), raw, toCenter).value.samples[0])
  {
  }

  /**
    The samples are unit vectors: the raw draws lie on the unit sphere and a
    rotation keeps lengths.
   */
  lemma SphericalSamplesAreUnit(n: Option<int>, raw: seq<Vector3D>, toCenter: Vector3D -> Vector3D)
    requires Requested(n) >= 0 && |raw| == Requested(n)
    requires forall i :: 0 <= i < |raw| ==> NormSq(raw[i]) == 1.0
    requires forall v :: NormSq(toCenter(v)) == NormSq(v)
    ensures forall s :: s in Samples(SphericalUniform(n, raw, toCenter).value) ==> NormSq(s) == 1.0
  {
  }

  // ---------------------------------------------------------------------------
  // clipped_spherical_uniform

  /** The width of the cap the clipped sampler draws from: the larger of the two clipping angles, so it contains both. */
  function CapWidth(maxAlpha: real, maxBeta: real): (w: real)
    ensures maxAlpha <= w && maxBeta <= w
    ensures w == maxAlpha || w == maxBeta
  {
    if maxBeta > maxAlpha then maxBeta else maxAlpha
  }

  /**
    The mask of `clipped_spherical_uniform`: the left/right angulation is
    within `maxAlpha`, and the cranial/caudal angulation is within `maxBeta`
    or the yaw within `maxTheta`.
   */
  function InClip(d: Vector3D, maxAlpha: real, maxBeta: real, maxTheta: real, atan2: (real, real) -> real): (b: bool)
    ensures maxAlpha < 0.0 ==> !b
    ensures maxBeta < 0.0 && maxTheta < 0.0 ==> !b
    ensures b ==> Abs(atan2(d.x, d.z)) <= maxAlpha
  {
    && Abs(atan2(d.x, d.z)) <= maxAlpha
    && (Abs(atan2(d.y, d.z)) <= maxBeta || Abs(atan2(d.y, d.x)) <= maxTheta)
  }

  /** Widening any of the three clipping angles never rejects a direction the narrower clip kept. */
  lemma ClipWidens(d: Vector3D, maxAlpha: real, maxBeta: real, maxTheta: real,
                   alpha': real, beta': real, theta': real, atan2: (real, real) -> real)
    requires maxAlpha <= alpha' && maxBeta <= beta' && maxTheta <= theta'
    ensures InClip(d, maxAlpha, maxBeta, maxTheta, atan2) ==> InClip(d, alpha', beta', theta', atan2)
  {
  }

  function ClipMask(maxAlpha: real, maxBeta: real, maxTheta: real, atan2: (real, real) -> real): Vector3D -> bool {
    d => InClip(d, maxAlpha, maxBeta, maxTheta, atan2)
  }

  /** Every candidate the clipped sampler considers: the cap draws, rotated onto the center. */
  function ClipCandidates(maxAlpha: real, maxBeta: real, capDraws: real -> seq<Vector3D>, toCenter: Vector3D -> Vector3D)
    : seq<Vector3D>
  {
    Rotated(capDraws(CapWidth(maxAlpha, maxBeta)), toCenter)
  }

  /**
    One round of the clipped sampler is one call of `spherical_uniform` with
    the full count: the rotated cap draws of that round, in order.
   */
  lemma RoundIsSphericalBatch(raw: seq<Vector3D>, toCenter: Vector3D -> Vector3D, start: nat, k: nat)
    requires start + k <= |raw|
    ensures SphericalUniform(Some(k), raw[start..start + k], toCenter)
      == Ok(Many(Rotated(raw, toCenter)[start..start + k]))
  {
    assert Rotated(raw[start..start + k], toCenter) == Rotated(raw, toCenter)[start..start + k];
  }

  /**
    `clipped_spherical_uniform(center, max_alpha, max_beta, max_theta, n)`.
    `capDraws(d_phi)` is the stream of unit vectors that `_sample_spherical`
    draws within `d_phi` of +z. Each round draws a full batch of `n_`, keeps
    the masked ones, and the result is the first `n_` kept, in draw order.
   */
  method ClippedSphericalUniform(
    maxAlpha: real, maxBeta: real, maxTheta: real, n: Option<int>,
    capDraws: real -> seq<Vector3D>, toCenter: Vector3D -> Vector3D, atan2: (real, real) -> real)
    returns (r: Result<Sampled<Vector3D>>)
    ensures var candidates := ClipCandidates(maxAlpha, maxBeta, capDraws, toCenter);
      var accepted := Filter(candidates, ClipMask(maxAlpha, maxBeta, maxTheta, atan2));
      && (r.Ok? <==> |Filter(candidates[..WholeBatches(|candidates|, Wanted(n))], ClipMask(maxAlpha, maxBeta, maxTheta, atan2))| >= Wanted(n))
      && (r.Err? ==> r.error == DrawsExhausted)
      && (r.Ok? ==> |accepted| >= Wanted(n))
      && (r.Ok? ==>
        && Shaped(r.value, n)
        && |Samples(r.value)| == Wanted(n)
        && Samples(r.value) == accepted[..Wanted(n)])
    ensures r.Ok? ==> forall i :: 0 <= i < |Samples(r.value)| ==>
      InClip(Samples(r.value)[i], maxAlpha, maxBeta, maxTheta, atan2)
  {
    var k := Wanted(n);
    var candidates := ClipCandidates(maxAlpha, maxBeta, capDraws, toCenter);
    var mask := ClipMask(maxAlpha, maxBeta, maxTheta, atan2);
    var out, used, rounds := FillByBatches(candidates, mask, k);
    if out.None? {
      return Err(DrawsExhausted);
    }
    assert out.value[..k] == Filter(candidates, mask)[..k];
    if n.None? {
      r := Ok(One(out.value[0]));
      assert Samples(r.value) == out.value[..k];
    } else {
      r := Ok(Many(out.value[..k]));
    }
  }

  // ---------------------------------------------------------------------------
  // normal and uniform

  /** The mask of `normal` and `uniform`: everything without a radius, the closed ball of the radius otherwise. */
  function BallMask(radius: Option<real>): (m: Vector3D -> bool)
    ensures radius.None? ==> forall v :: m(v)
    ensures radius.Some? ==> forall v :: m(v) <==> 0.0 <= radius.value && NormSq(v) <= radius.value * radius.value
  {
    if radius.None? then (v: Vector3D) => true else (v: Vector3D) => WithinRadius(v, radius.value)
  }

  /**
    What `normal` and `uniform` promise, given the offsets their generator
    draws: the first `n_` accepted offsets, in draw order, each added to the
    center; failure exactly when the draws hold fewer than `n_` accepted ones.
   */
  predicate CloudOf(r: Result<Sampled<Point3D>>, center: Point3D, n: Option<int>, draws: seq<Vector3D>, accept: Vector3D -> bool) {
    var accepted := Filter(draws, accept);
    && (r.Ok? <==> |accepted| >= Wanted(n))
    && (r.Err? ==> r.error == DrawsExhausted)
    && (r.Ok? ==>
      && Shaped(r.value, n)
      && |Samples(r.value)| == Wanted(n)
      && forall i :: 0 <= i < Wanted(n) ==> Samples(r.value)[i] == Plus(center, accepted[i]))
  }

  /**
    The loop shared by `normal` and `uniform`: each round draws only the
    missing `n_ - len(points)` offsets and keeps the accepted ones. Also
    returns how many rounds the loop ran.
   */
  method Cloud(center: Point3D, n: Option<int>, draws: seq<Vector3D>, accept: Vector3D -> bool)
    returns (r: Result<Sampled<Point3D>>, rounds: nat)
    ensures CloudOf(r, center, n, draws, accept)
    ensures r.Ok? ==> forall i :: 0 <= i < |Samples(r.value)| ==> accept(Minus(Samples(r.value)[i], center))
    ensures (forall i :: 0 <= i < |draws| ==> accept(draws[i])) && Wanted(n) <= |draws| ==>
      r.Ok? && rounds == (if Wanted(n) == 0 then 0 else 1)
  {
    var k := Wanted(n);
    var out, used;
    out, used, rounds := FillByRemainder(draws, accept, k);
    if out.None? {
      return Err(DrawsExhausted), rounds;
    }
    var points := Offsets(center, out.value);
    if n.None? {
      r := Ok(One(points[0]));
    } else {
      r := Ok(Many(points));
    }
    forall i | 0 <= i < |Samples(r.value)|
      ensures accept(Minus(Samples(r.value)[i], center))
    {
      PlusMinus(center, out.value[i]);
    }
  }

  /**
    `normal(center, scale, radius, n)`, given the normally distributed offsets
    the generator draws. Without a radius every offset is kept; with one,
    only those whose norm is at most the radius. The generator refuses a
    negative `scale` as soon as the loop asks it for a batch.
   */
  method Normal(center: Point3D, scale: real, radius: Option<real>, n: Option<int>, draws: seq<Vector3D>)
    returns (r: Result<Sampled<Point3D>>, rounds: nat)
    ensures Wanted(n) > 0 && scale < 0.0 ==> r == Err(NegativeScale)
    ensures Wanted(n) == 0 || scale >= 0.0 ==> CloudOf(r, center, n, draws, BallMask(radius))
    ensures r.Ok? && radius.Some? ==> forall i :: 0 <= i < |Samples(r.value)| ==>
      WithinRadius(Minus(Samples(r.value)[i], center), radius.value)
    ensures radius.None? && scale >= 0.0 ==> (r.Ok? <==> |draws| >= Wanted(n))
    ensures radius.None? && scale >= 0.0 && |draws| >= Wanted(n) ==> rounds == (if Wanted(n) == 0 then 0 else 1)
  {
    if Wanted(n) > 0 && scale < 0.0 {
      return Err(NegativeScale), 0;
    }
    r, rounds := Cloud(center, n, draws, BallMask(radius));
    if radius.None? {
      FilterAcceptsAll(draws, BallMask(radius));
    }
  }

  /**
    `uniform(center, radius, n)`, given the offsets the generator draws in the
    cube of half-width `radius`: only those inside the ball are kept. A
    `None` radius fails when the loop negates it for its first batch, so the
    source's own `radius is not None` test is always true once reached; a
    loop that never runs returns the empty list.
   */
  method Uniform(center: Point3D, radius: Option<real>, n: Option<int>, draws: seq<Vector3D>)
    returns (r: Result<Sampled<Point3D>>)
    ensures radius.None? && Wanted(n) > 0 ==> r == Err(MissingRadius)
    ensures radius.None? && r.Ok? ==> r.value == Many([])
    ensures radius.Some? || Wanted(n) == 0 ==> CloudOf(r, center, n, draws, BallMask(radius))
    ensures r.Ok? && radius.Some? ==> forall i :: 0 <= i < |Samples(r.value)| ==>
      WithinRadius(Minus(Samples(r.value)[i], center), radius.value)
  {
    if radius.None? && Wanted(n) > 0 {
      return Err(MissingRadius);
    }
    var rounds;
    r, rounds := Cloud(center, n, draws, BallMask(radius));
  }

  /** A negative radius accepts no offset, so `uniform` never finishes when it needs one. */
  lemma {:induction false} NegativeRadiusAcceptsNothing(draws: seq<Vector3D>, radius: real)
    requires radius < 0.0
    ensures Filter(draws, BallMask(Some(radius))) == []
    decreases |draws|
  {
    if |draws| > 0 {
      NegativeRadiusAcceptsNothing(draws[1..], radius);
    }
  }

  /** The outcome of `uniform` with a negative radius and a positive count: the draws always run out. */
  lemma UniformNegativeRadius(r: Result<Sampled<Point3D>>, center: Point3D, radius: real, n: Option<int>, draws: seq<Vector3D>)
    requires radius < 0.0 && Wanted(n) > 0
    requires CloudOf(r, center, n, draws, BallMask(Some(radius)))
    ensures r == Err(DrawsExhausted)
  {
  }
}

=== FILE: values.dfy ===
/**
  The dynamically typed Python values that `radians` and `jsonable` dispatch
  on, as one tree. Numbers are mathematical: `Float` carries a real, and
  there is no NaN or infinity.
 */
module Values {

  datatype Value =
    | Null                                  // Python's None
    | Bool(b: bool)                         // a bool, which Python also treats as an int
    | Int(i: int)
    | Float(f: real)
    | Complex(re: real, im: real)
    | Str(s: string)
    | Path(path: string)                    // a pathlib.Path
    | List(items: seq<Value>)
    | Tuple(items: seq<Value>)
    | Dict(entries: seq<Entry>)             // in insertion order
    | NdArray(data: seq<real>)              // a one-dimensional float numpy array
    | ArrayLike(data: seq<real>)            // any other object with `__array__`
    | Opaque(typeName: string)              // any object of another type

  datatype Entry = Entry(key: Value, val: Value)

  /** `isinstance(v, (float, int))`; bools pass because `bool` subclasses `int`. */
  predicate IsNumber(v: Value) {
    v.Bool? || v.Int? || v.Float?
  }

  /** Whether `v` is a list or a tuple. */
  predicate IsSequence(v: Value) {
    v.List? || v.Tuple?
  }

  /** Whether `hash(v)` succeeds: lists, dicts and arrays are unhashable. */
  predicate Hashable(v: Value) {
    match v
    case List(_) => false
    case Dict(_) => false
    case NdArray(_) => false
    case Tuple(xs) => HashableItems(xs)
    case _ => true
  }

  predicate HashableItems(xs: seq<Value>) {
    |xs| == 0 || (Hashable(xs[0]) && HashableItems(xs[1..]))
  }

  function Keys(es: seq<Entry>): (ks: seq<Value>)
    ensures |ks| == |es|
    ensures forall i :: 0 <= i < |es| ==> ks[i] == es[i].key
  {
    if |es| == 0 then [] else [es[0].key] + Keys(es[1..])
  }

  /** A Python dict never holds one key twice. */
  predicate DistinctKeys(es: seq<Entry>) {
    forall i, j :: 0 <= i < j < |es| ==> es[i].key != es[j].key
  }
}
